=== FILE: README.md ===
# Card catalog query pipeline — a Dafny model

The card-collection app (`streamlit_app.py`) reads three Google Sheets:
cards, slabs and a value-tracking log. It shows one tab per card category.
Each tab has a set filter, a name search, a price slider, a sort box and
page buttons. The app is mostly Streamlit UI. This project models the pure
pipeline inside it:

- **Price cleaning** (`price.dfy`). `clean_price` drops every `$` and `,`, trims
  the text and reads it as a decimal number. A missing cell, or text that is not
  a number, gives 0.0. The number grammar is a `Decimal` datatype: a sign, digits,
  an optional point and fraction digits. `Render` turns it into text and `Value`
  into a real.
- **Header normalisation** (`ingest.dfy`). Headers are trimmed and lower-cased,
  then renamed through the alias table. `load_cards` adds a `"type"` column of
  `"Other"` when no header ends up as `type`. A sheet is a `Table` of headers and
  rows of optional cells. Card records are read off it by column name.
- **Category tabs** (`categories.dfy`). The raw types are the distinct card
  types, stripped, with blanks dropped; they are not tabs themselves. The tabs
  are the configured priority names that equal some raw type ignoring case, in
  the configured order and spelling. After them come the remaining raw types,
  title-cased and sorted ascending.
- **One tab's query** (`query.dfy`), built from these steps:
  - the tab's cards that have an image link and a name;
  - the price slider's extent;
  - the set, name-search and inclusive price filters;
  - the optional set-descending pre-sort and the user's sort;
  - the current page.
- **Paging** (`paging.dfy`). `total_pages = (n-1) // per_page + 1`. Page `p` is
  the slice `[(p-1)*per_page, p*per_page)`. The per-tab page counter is moved by
  the Previous and Next buttons.
- **Tracking log** (`tracking.dfy`). The value columns are coerced to numbers,
  with 0 for anything unparsable. Types are stripped. The type multiselect: an
  empty selection does not restrict.

Supporting modules:
- `text.dfy`: ASCII case mapping, `strip`, `title`, substring search and
  Python's string order.
- `seqs.dfy`: order-preserving filter, map, distinct and subsequences.
- `sorting.dfy`: `sort_values` order. Missing values go last. Only a
  permutation and sortedness are promised.
- `wrappers.dfy`: `Option`.

The main pipeline tests tab membership on the *stripped* type. The code as
written (line 120) does not strip it. See "Findings".

## Model

| member | source | states |
|---|---|---|
| Price.ParseNumber | streamlit_app.py:19-22 | `float()` on the cleaned text: when a well-formed decimal literal renders to the text, the result is that literal's value. Otherwise there is no number. |
| Price.Cleaned | streamlit_app.py:18 | The text handed to `float()` is trimmed and holds no `$` or `,`. |
| Price.CleanedChars | streamlit_app.py:18 | Every character of the cleaned text comes from the cell, and every non-space character of the cell other than `$` and `,` is in it. |
| Price.CleanedFrame | streamlit_app.py:18 | The cleaned text is the cell's characters other than `$` and `,`, in order, with only a run of whitespace removed at each end. Inner spaces stay, so `"1 2"` is no number. |
| Text.StripFrame | streamlit_app.py:18 | `strip()` removes whitespace at the two ends and nothing else: the text is its stripped form framed by two runs of whitespace. |
| Price.CleanPrice | streamlit_app.py:15-22 | A missing cell gives 0.0. A cell whose `$`/`,`-free, trimmed text is no decimal literal gives 0.0. Otherwise the result is the literal's value. |
| Price.CleanPriceOfLiteral | streamlit_app.py:18-20 | A cell whose cleaned text renders a literal reads as that literal's value. |
| Price.CleanPriceOfDollarText | streamlit_app.py:18-20 | Round trip: a price written the way the sheet shows it (`$`, thousands commas, two decimals) cleans back to dollars + cents/100. |
| Price.CleanPriceIgnoresSymbol | streamlit_app.py:18 | Inserting a `$` or `,` anywhere does not change the price, so `"$12"` reads as `"12"`. |
| Price.CleanPriceIgnoresLeadingSpace | streamlit_app.py:18 | Leading whitespace does not change the price. |
| Price.CleanPriceSheetExample | streamlit_app.py:15-22 | `"$1,234.56"` reads as 1234.56. |
| Price.CleanPriceNoDigits | streamlit_app.py:19-22 | Text with no digit is not a number and reads as 0.0. |
| Price.CleanPriceWord | streamlit_app.py:19-22 | `"abc"` and `""` read as 0.0. |
| Price.CleanPriceMissing | streamlit_app.py:16-17 | A missing cell reads as 0.0. |
| Price.Decompose | streamlit_app.py:20 | Splitting text into sign, whole digits, point and fraction loses nothing: rendering the parts gives the text back. |
| Price.DecomposeUnique | streamlit_app.py:20 | A well-formed literal's text determines the literal, so the parsed value is unambiguous. |
| Ingest.RenameTarget | streamlit_app.py:27 | The rename dictionary has an entry for a header exactly when some alias lower-cases to it. The entry is the canonical name of the last such alias. |
| Ingest.NormalizeColumns | streamlit_app.py:25-28 | Rows are untouched and the header count is kept. A header whose trimmed, lower-cased form is an alias gets that alias's canonical name. Every other header keeps its normalised form. |
| Ingest.NormalizeColumnsIdempotent | streamlit_app.py:25-28 | With a self-consistent alias table, normalising twice equals normalising once. |
| Ingest.CardColumnMapClosed | streamlit_app.py:34-46 | The card sheet's alias table is self-consistent: every canonical name is already a normalised header, and those that are also aliases map to themselves. |
| Ingest.CardHeadersIdempotent | streamlit_app.py:25-47 | Normalising the card sheet's headers a second time changes nothing. |
| Ingest.NormalizeHeaderIdempotent | streamlit_app.py:26 | Trimming and lower-casing a header a second time changes nothing. |
| Ingest.ColumnIndex | streamlit_app.py:120 | A column is found exactly when the header list contains its name, at its first position. |
| Ingest.WithDefaultType | streamlit_app.py:48-49 | Afterwards a `type` column exists. A sheet that has one is unchanged. Otherwise exactly one column, `type`, is appended after the existing headers, and each row keeps its cells and gains `"Other"`. |
| Ingest.CellAfterDefault | streamlit_app.py:49 | Reading any column but `type` from a row after the default type cell is appended gives the cell it had before. |
| Ingest.DefaultTypeKeepsFields | streamlit_app.py:48-49 | Adding the default type column keeps the card count, and each card's name, set, image link and price. |
| Ingest.LoadCards | streamlit_app.py:31-50 | The loaded sheet has a `type` column and one row per sheet row. A rectangular sheet stays rectangular. |
| Ingest.CardsOf | streamlit_app.py:119 | One card per sheet row, in sheet order, each read off its own row. |
| Ingest.DefaultTypeIsOther | streamlit_app.py:48-49 | When the type column was missing, every card's type is `"Other"`. |
| Ingest.DefaultTypeKeeps | streamlit_app.py:48 | A sheet that already has a type column is unchanged. |
| Ingest.LoadCardsType | streamlit_app.py:32-50 | After `load_cards` a type column exists. Without a mapped type column every card is `"Other"`. With one, the sheet is just the normalised sheet. Either way there is one card per row, and each card's name, set, image link and price are those of the normalised sheet. |
| Categories.TypeValues | streamlit_app.py:92 | `dropna()` of the type column: exactly the types some card carries. |
| Categories.RawTypes | streamlit_app.py:92 | Every raw type is stripped and non-blank. |
| Categories.RawTypesCount | streamlit_app.py:92 | A non-blank type occurs among the raw types once per distinct type value that strips to it, because `unique()` runs before `strip()`. A blank one does not occur. |
| Categories.DuplicateLabel | streamlit_app.py:92-107 | Two different raw types with the same title case that match no priority name, such as "Yugioh" and "YUGIOH", put that label among the tabs at least twice. |
| Categories.StrippedTypeIsRaw | streamlit_app.py:92 | Any card's type, stripped, is a raw type unless it is blank. |
| Categories.RawTypeOrigin | streamlit_app.py:92 | Every raw type is stripped and non-blank, and is the stripped type of some card. |
| Categories.PriorityTypes | streamlit_app.py:95-98 | The priority tabs are a subsequence of the priority list, in its order. A name is among them exactly when some raw type equals it ignoring case. |
| Categories.RemainingTypes | streamlit_app.py:101-104 | The other tabs are sorted ascending. None lower-cases to a priority key. They are exactly the title-cased non-priority raw types, duplicates included. |
| Categories.AllTypes | streamlit_app.py:107 | No tab that matches a priority name comes after a tab that does not. |
| Categories.LabelOfRawType | streamlit_app.py:92-107 | Every raw type has a tab that equals it ignoring case. |
| Categories.LabelOrigin | streamlit_app.py:92-107 | Every tab equals some raw type ignoring case. |
| Categories.LabelShape | streamlit_app.py:96-107 | Every tab is a priority name or the title-cased form of a raw type. |
| Categories.InKeys | streamlit_app.py:89-97 | A key is in the lower-cased list exactly when some name lower-cases to it. |
| Seqs.Distinct | streamlit_app.py:92 | `unique()`: no value twice, and exactly the values of the input. |
| Text.Contains | streamlit_app.py:168 | True exactly when the needle occurs at some position of the text. |
| Text.LowerTitle | streamlit_app.py:101-103 | Title-casing, then lower-casing, gives the same as lower-casing alone. So a title-cased tab still matches its raw type ignoring case. |
| Sorting.SortBy | streamlit_app.py:170-180 | `sort_values` on one column: the result is a permutation of the input, ordered by the key ascending or descending, missing values last. |
| Query.TabView | streamlit_app.py:120 | A tab's cards keep sheet order. They are exactly the cards whose stripped type equals the tab ignoring case and that have an image link and a name, each as many times as the sheet holds it. |
| Query.TabViewAsWritten | streamlit_app.py:120 | As written: a subsequence of the sheet holding exactly the cards whose unstripped type equals the tab ignoring case and that have an image link and a name, each as many times as the sheet holds it. |
| Query.PriceOfCell | streamlit_app.py:121 | A card's price (`Query.PriceOf`) is `clean_price` of its market-price cell: 0.0 when the cell is missing, the value of the decimal literal its cleaned text spells, and 0.0 when the cleaned text is no literal. |
| Query.MinPrice | streamlit_app.py:150 | The slider's lower end is at most every price of the tab and is one of them. |
| Query.MaxPrice | streamlit_app.py:151 | The slider's upper end is at least every price of the tab and is one of them. |
| Query.PriceRangeBounds | streamlit_app.py:150-151 | The slider's lower end does not exceed its upper end. |
| Query.PriceRange | streamlit_app.py:152-162 | When the lowest and highest price of the tab agree, both ends are that price and every card of the tab has it. Otherwise the range is the slider's. |
| Query.OnePriceRange | streamlit_app.py:150-162 | When every card of the tab has one price, the range is that price at both ends. When two cards' prices differ, no single price is shown and the range is the slider's value. |
| Query.TabRange | streamlit_app.py:150-162 | The range a tab's price filter uses, over the tab's own cards: their shared price at both ends when they all have one, otherwise the slider's value. |
| Query.SinglePriceKeepsAll | streamlit_app.py:152-154 | When all prices of a tab are equal, the effective range is that price and keeps every card of the tab. |
| Query.BySet | streamlit_app.py:165-166 | With a set selected, exactly the cards of that set remain, in order. With "All" nothing is removed. Kept cards keep their number of repeats. |
| Query.ByName | streamlit_app.py:167-168 | With a non-blank query, exactly the cards whose name contains it ignoring case remain, in order. A blank query removes nothing. Kept cards keep their number of repeats. |
| Query.ByPrice | streamlit_app.py:169 | Exactly the cards priced within the range, both ends inclusive, remain, in order and with their repeats. |
| Query.ApplyFilters | streamlit_app.py:165-169 | The filtered rows are a subsequence of the tab's rows. A card is kept, as often as it occurs, exactly when it passes the set, name and price filters. |
| Query.ApplyFiltersIsOneFilter | streamlit_app.py:165-169 | The three filters in sequence equal the single filter on their conjunction. |
| Query.UserSort | streamlit_app.py:173-180 | The user's sort is a permutation. Rows that all have names come out ordered by the chosen option. |
| Query.SortRows | streamlit_app.py:170-180 | The sorted rows are a permutation of the filtered rows, ordered by the chosen key and direction. |
| Query.TabRows | streamlit_app.py:120-180 | The listing is no longer than the tab. A card is in it exactly when it is in the sheet, is in the tab, is listed and passes the filters, and it occurs as often as in the sheet. It is ordered by the chosen sort. |
| Query.RunTab | streamlit_app.py:120-192 | The page is the `[(p-1)*per_page, p*per_page)` slice of the tab's listing. `total_items` is the listing's size and `total_pages` is computed from it. Every card on the page is shown by the tab under the current filters, in sort order. |
| Query.RunTabShowsPage | streamlit_app.py:188-192 | The page holds `min(per_page, items left)` cards, and its i-th card is the listing's card at `(p-1)*per_page + i`. |
| Query.PageOfRows | streamlit_app.py:190-192 | A page holds cards of the listing, in the listing's order. |
| Query.TabsCoverCards | streamlit_app.py:88-120 | Every card with a non-blank type is in some tab. This is the corrected membership test. |
| Query.EveryTabHasItsCards | streamlit_app.py:88-120 | Every tab contains at least one card of the sheet. |
| Query.PaddedTypeUnlisted | streamlit_app.py:92-120 | As written, a card whose type starts with whitespace produces a tab, yet it matches no tab. |
| Query.LabelStartsWithNonSpace | streamlit_app.py:88-107 | No tab label starts with whitespace. |
| Paging.TotalPages | streamlit_app.py:188-189 | Zero pages for zero items. Otherwise the smallest count of pages that holds all items. |
| Paging.PageSlice | streamlit_app.py:190-192 | Page `p` holds at most `per_page` items: those at positions `(p-1)*per_page` onward, cut off at the end of the list. |
| Paging.Paginate | streamlit_app.py:188-192 | `total_items` is the row count and `total_pages` is computed from it. The page holds `min(per_page, items left)` rows, and its i-th row is the row at `(p-1)*per_page + i`. |
| Paging.PagesRoundTrip | streamlit_app.py:188-192 | Pages 1 to `total_pages`, laid end to end, give back the whole listing once and in order. |
| Paging.FirstPagesPrefix | streamlit_app.py:190-192 | The first k pages are the listing's first k·per_page items. |
| Paging.PageSizes | streamlit_app.py:188-192 | Every page before the last is full and the last is not empty. |
| Paging.PageBeyondLastIsEmpty | streamlit_app.py:190-192 | A page past the last one is empty. |
| Paging.Press | streamlit_app.py:209-215 | Previous on a page above 1 moves back one page, and Next on a page below `total_pages` moves forward one. Otherwise the counter stays where it is. A press never leaves the counter below 1 or beyond the larger of its old value and `total_pages`. |
| Paging.RunBounds | streamlit_app.py:185-215 | Under any sequence of presses, a counter starting at 1 stays between 1 and the largest page count shown. |
| Paging.PressIn | streamlit_app.py:185-215 | A press in one tab changes only that tab's counter. |
| Paging.PressInKeepsValid | streamlit_app.py:185-215 | All counters stay at 1 or above. |
| Tracking.CoerceNumber | streamlit_app.py:72-73 | A missing or unparsable value becomes 0. A decimal literal, surrounding whitespace allowed, becomes its value. |
| Tracking.StripCell | streamlit_app.py:74 | A missing type stays missing. A present one is stripped. |
| Tracking.EntryOf | streamlit_app.py:72-74 | A missing value counts as 0. The entry has a type exactly when the row does, and that type is stripped. |
| Tracking.LoadLog | streamlit_app.py:67-75 | One entry per row, and every present type is stripped. Each entry's time, values and type come from its own row of the header-normalised sheet: values coerced to numbers, type stripped. |
| Tracking.LogTypes | streamlit_app.py:260 | Exactly the types present in the log. |
| Tracking.TypesAvailable | streamlit_app.py:260 | The multiselect's choices: every present type, once each, sorted ascending. |
| Tracking.TrackFilter | streamlit_app.py:263-264 | An empty selection returns the log unchanged. Otherwise exactly the entries whose type is selected remain, in log order, each as many times as the log holds it. |
| Tracking.DefaultSelectionKeepsTyped | streamlit_app.py:260-264 | With the default selection, every entry that has a type is kept. |
| Tracking.TrackFilterIdempotent | streamlit_app.py:263-264 | Filtering twice by the same selection equals filtering once. |
| Tracking.TrackFilterMonotone | streamlit_app.py:263-264 | A smaller non-empty selection keeps a subset of the entries. |

## Left out

- Streamlit rendering (tabs, columns, image grid, headers, info boxes) is UI with no behaviour to state. So is `st.cache_data`.
- Session state is left out beyond the per-tab page counter, which is modelled.
- Reading the sheets (`pd.read_csv` on Google Sheets URLs), `load_slabs` and the Refresh buttons are network I/O. A sheet is a parameter (`Table`).
- The Slabs tab is left out: it is display only.
- The admin panel is left out: password check, Excel upload/download and PSA API calls are foreign I/O.
- Plotly charts are left out. `pd.to_datetime(..., dayfirst=True)` is left out too, so the tracking time stays text.
- Price.ParseNumber: covers optional sign, ASCII digits, optional point and fraction digits. Python `float()` also accepts `inf`, `nan`, exponents, `_` separators and non-ASCII decimal digits (full-width `"１２"` reads as 12.0), and rounds to IEEE doubles. The model uses exact reals and reads such text as no number.
- Tracking.CoerceNumber: uses the same decimal grammar for `pd.to_numeric`, with surrounding whitespace allowed.
- Text.Lower: maps ASCII letters only. Python's `lower`/`title`/`isspace` are Unicode-aware. Text.Title and Text.IsSpace have the same ASCII-only limitation.
- Query.NameMatches: literal, case-insensitive substring search. The source's `str.contains` uses regex semantics by default, so a query holding regex metacharacters may behave differently there.
- Query.SortRows: promises a permutation ordered by the chosen key. Tie order is not promised, because `sort_values` is not stable by default. So the effect of the set-descending pre-sort on ties is not stated.
- Sorting.Precedes: puts missing values last in both directions. Name and price never have missing values here, and `set` may.
- Query.TabRows: uses the corrected tab membership, which compares the stripped type (see "Findings"). As written, a card whose type has surrounding whitespace is missing from its tab's listing.
- Query.RunTab: is built on Query.TabRows, so it also uses the corrected membership. It requires a tab with at least one listed card. As written, a tab whose only cards have padded types has an empty view, and the source then computes NaN slider bounds, which exact reals cannot model.
- Query.MinPrice: is taken over the tab's view under the corrected membership, and needs a non-empty view for the same reason.
- Query.MaxPrice: is taken over the same view, with the same requirement.
- Paging.TotalPages: follows the code, `(n-1)//per_page + 1`, which gives 0 for an empty listing, so the counter reads "Page 1 of 0".
- Streamlit's rerun model is left out: a button press is shown on the next rerun. `Paging.Press` models the counter update itself.
- Ingest.NormalizeColumns: two headers can end up with the same name after renaming, for example "type" and "game". pandas then holds duplicate columns. The model looks up the first one. In the source, with two `type` columns `cards_df["type"]` is a table, and `.unique()` at line 92 raises, so the app stops there.
- Ingest.Cell: a column missing from the sheet (`set`, `name`, …) reads as a missing cell. The source would raise `KeyError`.
- Query.PriceRange: the slider value is a parameter, since the widget's state is UI.
- The choice list of the set box (line 129) is left out: the selected set is a parameter.
- Tracking.TypesAvailable: drops missing types. In the source, a missing type (NaN) next to present ones makes `sorted` raise `TypeError`.
- Tracking.LoadLog: keeps entries without a type. In the source, a non-empty log whose type cells are all empty has a numeric type column, so `.str.strip()` at line 74 raises `AttributeError` and the log never loads.
- Query.TabView: two raw types that differ only in case, such as "Yugioh" and "YUGIOH", give two tabs with the same label (Categories.DuplicateLabel). So do two type values that differ only in surrounding whitespace and match no priority name, such as " Yugioh" and "Yugioh", which give the raw type "Yugioh" twice (Categories.RawTypesCount). In both cases the widget keys (`set_Yugioh`, `search_Yugioh`, …) then collide, and Streamlit stops with a duplicate-key error. The model shows the same listing under both tabs and does not model the error.

## Findings

| source | as written | input that shows it | evidently intended | confidence | as-written member | corrected member |
|---|---|---|---|---|---|---|
| streamlit_app.py:120 | The tab labels come from stripped types (line 92). The tab's rows compare the *unstripped* type, lower-cased, to the label (line 120). | A card whose type cell is `" Yugioh"`. It creates the tab "Yugioh", but `" yugioh" != "yugioh"`, so the card appears in no tab. | Compare the stripped type, `df["type"].str.strip().str.lower() == t.lower()`, so every card with a non-blank type appears in a tab. | not executed | Query.PaddedTypeUnlisted | Query.TabsCoverCards |

=== FILE: categories.dfy ===
/**
 * The category tabs: the distinct non-blank card types, the configured
 * priority names that occur among them (matched case-insensitively, in
 * the configured order, with the configured spelling), then every other
 * type title-cased and sorted ascending.
 */
module Categories {
  import opened Wrappers
  import opened Text
  import opened Seqs
  import opened Sorting
  import opened Ingest

  /** The configured priority names, with their display spelling. */
  const Priority: seq<string> := ["Pokemon", "One Piece", "Magic the Gathering"]

  /** `cards_df["type"].dropna()` */
  function TypeValues(cards: seq<Card>): (r: seq<string>)
    ensures forall t :: t in r <==> exists c :: c in cards && c.cardType == Some(t)
  {
    if |cards| == 0 then []
    else
      var rest := TypeValues(cards[1..]);
      assert forall c :: c in cards <==> c == cards[0] || c in cards[1..];
      match cards[0].cardType
      case Some(t) => [t] + rest
      case None => rest
  }

  predicate NonBlank(s: string) { s != "" }

  /** `[t.strip() for t in ... .unique() if str(t).strip() != ""]`: the
      non-blank stripped forms of the types the cards carry. */
  function RawTypes(cards: seq<Card>): (r: seq<string>)
    ensures forall t :: t in r ==> Stripped(t) && NonBlank(t)
  {
    var d := Distinct(TypeValues(cards));
    var m := Map(d, Strip);
    forall t | t in m ensures Stripped(t) {
      var i :| 0 <= i < |m| && m[i] == t;
      StripStripped(d[i]);
    }
    Filter(m, NonBlank)
  }

  /** The lower-cased forms of a list of names. */
  function Keys(names: seq<string>): seq<string> {
    Map(names, Lower)
  }

  /** Lines 95-98: the priority names, in priority order, that some raw
      type equals ignoring case. */
  function PriorityTypes(priority: seq<string>, raw: seq<string>): (r: seq<string>)
    ensures IsSubseq(r, priority)
    ensures forall d :: d in r <==> d in priority && exists t :: t in raw && Lower(t) == Lower(d)
  {
    FilterIsSubseq(priority, (d: string) => Lower(d) in Keys(raw));
    forall d ensures Lower(d) in Keys(raw) <==> exists t :: t in raw && Lower(t) == Lower(d) {
      InKeys(raw, Lower(d));
    }
    Filter(priority, (d: string) => Lower(d) in Keys(raw))
  }

  /** Lines 101-104: the raw types matching no priority name, title-cased
      and sorted ascending, duplicates included. */
  function RemainingTypes(priority: seq<string>, raw: seq<string>): (r: seq<string>)
    ensures forall i, j :: 0 <= i < j < |r| ==> LexLe(r[i], r[j])
    ensures forall x :: x in r ==> Lower(x) !in Keys(priority)
    ensures multiset(r) == multiset(Map(Filter(raw, (t: string) => Lower(t) !in Keys(priority)), Title))
  {
    var kept := Filter(raw, (t: string) => Lower(t) !in Keys(priority));
    var titled := Map(kept, Title);
    var r := SortBy(titled, StrKey, false);
    forall i, j | 0 <= i < j < |r| ensures LexLe(r[i], r[j]) {
      assert Precedes(false, StrKey(r[i]), StrKey(r[j]));
    }
    forall x | x in r ensures Lower(x) !in Keys(priority) {
      assert x in multiset(titled);
      var i :| 0 <= i < |titled| && titled[i] == x;
      assert kept[i] in kept;
      assert Lower(kept[i]) !in Keys(priority);
      LowerTitle(false, kept[i]);
      assert Lower(x) == Lower(kept[i]);
    }
    r
  }

  function StrKey(s: string): Key { Str(s) }

  /** `all_types = priority_types + remaining_types` */
  function AllTypes(priority: seq<string>, cards: seq<Card>): (r: seq<string>)
    ensures forall i, j :: 0 <= i < j < |r| && Lower(r[j]) in Keys(priority) ==> Lower(r[i]) in Keys(priority)
  {
    var raw := RawTypes(cards);
    var p := PriorityTypes(priority, raw);
    var rest := RemainingTypes(priority, raw);
    forall i | 0 <= i < |p| ensures Lower(p[i]) in Keys(priority) {
      assert p[i] in p;
      InKeys(priority, Lower(p[i]));
    }
    forall j | 0 <= j < |rest| ensures Lower(rest[j]) !in Keys(priority) {
      assert rest[j] in rest;
    }
    p + rest
  }

  /** The tab labels of the card sheet. */
  function Tabs(cards: seq<Card>): seq<string> {
    AllTypes(Priority, cards)
  }

  // ----- lemmas -----

  lemma InKeys(names: seq<string>, k: string)
    ensures k in Keys(names) <==> exists n :: n in names && Lower(n) == k
  {
    var ks := Keys(names);
    if k in ks {
      var i :| 0 <= i < |ks| && ks[i] == k;
      assert names[i] in names;
    }
    forall n | n in names && Lower(n) == k ensures k in ks {
      var i :| 0 <= i < |names| && names[i] == n;
      assert ks[i] == k;
    }
  }

  /** A type some card carries, once stripped, is a raw type unless it
      is blank. */
  lemma StrippedTypeIsRaw(cards: seq<Card>, u: string)
    requires u in TypeValues(cards) && NonBlank(Strip(u))
    ensures Strip(u) in RawTypes(cards)
  {
    var d := Distinct(TypeValues(cards));
    var m := Map(d, Strip);
    assert u in d;
    var i :| 0 <= i < |d| && d[i] == u;
    assert m[i] == Strip(u);
    assert Strip(u) in m;
  }

  /** Line 92 takes `unique()` before stripping, so a raw type occurs once
      for each distinct type value that strips to it: `" Yugioh"` and
      `"Yugioh"` give `"Yugioh"` twice. Blank types do not occur. */
  lemma RawTypesCount(cards: seq<Card>, t: string)
    ensures multiset(RawTypes(cards))[t] ==
      if NonBlank(t) then |Preimage(TypeValues(cards), Strip, t)| else 0
  {
    var m := Map(Distinct(TypeValues(cards)), Strip);
    FilterCount(m, NonBlank);
    DistinctMapCount(TypeValues(cards), Strip, t);
  }

  /** Two raw types that differ only in case, such as "Yugioh" and
      "YUGIOH", and match no priority name, give the same label twice. */
  lemma DuplicateLabel(priority: seq<string>, cards: seq<Card>, t1: string, t2: string)
    requires t1 in RawTypes(cards) && t2 in RawTypes(cards) && t1 != t2
    requires Title(t1) == Title(t2) && Lower(t1) !in Keys(priority)
    ensures multiset(AllTypes(priority, cards))[Title(t1)] >= 2
  {
    var raw := RawTypes(cards);
    var kept := Filter(raw, (t: string) => Lower(t) !in Keys(priority));
    LowerTitle(false, t1);
    LowerTitle(false, t2);
    assert t1 in kept && t2 in kept;
    MapTwice(kept, Title, t1, t2);
    var p := PriorityTypes(priority, raw);
    var rest := RemainingTypes(priority, raw);
    assert multiset(p + rest) == multiset(p) + multiset(rest);
  }

  /** A title-cased tab lower-cases to the same key as the raw type it was
      made from, and a priority tab to the key of its name. */
  lemma LabelOfRawType(priority: seq<string>, cards: seq<Card>, t: string)
    requires t in RawTypes(cards)
    ensures exists tab :: tab in AllTypes(priority, cards) && Lower(tab) == Lower(t)
  {
    var raw := RawTypes(cards);
    InKeys(priority, Lower(t));
    if Lower(t) in Keys(priority) {
      var d :| d in priority && Lower(d) == Lower(t);
      assert d in AllTypes(priority, cards);
    } else {
      TitledIsRemaining(priority, raw, t);
      LowerTitle(false, t);
      assert Title(t) in AllTypes(priority, cards);
    }
  }

  /** A raw type matching no priority name has its title-cased form among
      the remaining tabs. */
  lemma TitledIsRemaining(priority: seq<string>, raw: seq<string>, t: string)
    requires t in raw && Lower(t) !in Keys(priority)
    ensures Title(t) in RemainingTypes(priority, raw)
  {
    var kept := Filter(raw, (u: string) => Lower(u) !in Keys(priority));
    var titled := Map(kept, Title);
    var i :| 0 <= i < |kept| && kept[i] == t;
    assert titled[i] in multiset(titled);
  }

  /** Every tab is a priority name or the title-cased form of a raw type. */
  lemma LabelOrigin(priority: seq<string>, cards: seq<Card>, tab: string)
    requires tab in AllTypes(priority, cards)
    ensures exists t :: t in RawTypes(cards) && Lower(t) == Lower(tab)
  {
    var raw := RawTypes(cards);
    if tab in PriorityTypes(priority, raw) {
      var t :| t in raw && Lower(t) == Lower(tab);
    } else {
      var kept := Filter(raw, (u: string) => Lower(u) !in Keys(priority));
      var titled := Map(kept, Title);
      assert tab in RemainingTypes(priority, raw);
      assert tab in multiset(titled);
      var i :| 0 <= i < |titled| && titled[i] == tab;
      assert kept[i] in kept;
      LowerTitle(false, kept[i]);
      assert kept[i] in raw && Lower(kept[i]) == Lower(tab);
    }
  }

  /** Every raw type is the stripped type of some card, hence itself
      stripped and not blank. */
  lemma RawTypeOrigin(cards: seq<Card>, t: string)
    requires t in RawTypes(cards)
    ensures Stripped(t) && NonBlank(t)
    ensures exists c :: c in cards && c.cardType.Some? && Strip(c.cardType.value) == t
  {
    var d := Distinct(TypeValues(cards));
    var m := Map(d, Strip);
    assert t in m;
    var i :| 0 <= i < |m| && m[i] == t;
    assert d[i] in d;
    var u := d[i];
    assert u in TypeValues(cards);
    StripStripped(u);
    var c :| c in cards && c.cardType == Some(u);
  }

  /** Every tab is a priority name or the title-cased form of a raw type. */
  lemma LabelShape(priority: seq<string>, cards: seq<Card>, tab: string)
    requires tab in AllTypes(priority, cards)
    ensures tab in priority || exists t :: t in RawTypes(cards) && tab == Title(t)
  {
    var raw := RawTypes(cards);
    if tab in PriorityTypes(priority, raw) {
    } else {
      var kept := Filter(raw, (u: string) => Lower(u) !in Keys(priority));
      var titled := Map(kept, Title);
      assert tab in RemainingTypes(priority, raw);
      assert tab in multiset(titled);
      var i :| 0 <= i < |titled| && titled[i] == tab;
      assert kept[i] in kept;
      assert kept[i] in raw && tab == Title(kept[i]);
    }
  }
}

=== FILE: ingest.dfy ===
/**
 * Record normalisation: `normalize_columns` and the card-sheet load.
 * Headers are trimmed and lower-cased, then renamed through an alias
 * table; rows are left exactly as read. A card sheet with no column that
 * ends up named "type" gets one, holding "Other" in every row.
 */
module Ingest {
  import opened Wrappers
  import opened Text
  import Seqs

  /** A sheet as pandas holds it: headers and rows of cells, where a
      missing cell (NaN) is None. */
  datatype Table = Table(columns: seq<string>, rows: seq<seq<Option<string>>>)

  /** Every row has one cell per column, as in a DataFrame. */
  predicate Rectangular(t: Table) {
    forall i :: 0 <= i < |t.rows| ==> |t.rows[i]| == |t.columns|
  }

  /** An alias table in dictionary insertion order: (alias, canonical name). */
  type ColumnMap = seq<(string, string)>

  /** The aliases used for the card sheet. */
  const CardColumnMap: ColumnMap := [
    ("item no", "item_no"),
    ("name", "name"),
    ("set", "set"),
    ("type", "type"),
    ("category", "type"),
    ("card type", "type"),
    ("game", "type"),
    ("condition", "condition"),
    ("sell price", "sell_price"),
    ("image link", "image_link"),
    ("market price", "market_price")
  ]

  /** `str.strip().str.lower()` on a header. */
  function NormalizeHeader(h: string): string {
    Lower(Strip(h))
  }

  /** `c` is a key of the rename dictionary built from `cm`. */
  predicate IsAlias(cm: ColumnMap, c: string) {
    exists j :: 0 <= j < |cm| && Lower(cm[j].0) == c
  }

  /** The rename dictionary `{k.lower(): v ...}` looked up at `c`. When two
      aliases lower-case to the same key, the later entry wins, as in a
      Python dict comprehension. */
  function RenameTarget(cm: ColumnMap, c: string): (r: Option<string>)
    ensures r.Some? <==> IsAlias(cm, c)
    ensures r.Some? ==> exists j :: 0 <= j < |cm| && Lower(cm[j].0) == c && r.value == cm[j].1 &&
                          forall k :: j < k < |cm| ==> Lower(cm[k].0) != c
  {
    if |cm| == 0 then None
    else
      var init := cm[..|cm| - 1];
      var last := cm[|cm| - 1];
      if Lower(last.0) == c then Some(last.1)
      else
        var r := RenameTarget(init, c);
        assert IsAlias(cm, c) ==> IsAlias(init, c) by {
          if IsAlias(cm, c) {
            var j :| 0 <= j < |cm| && Lower(cm[j].0) == c;
            assert j < |cm| - 1 && init[j] == cm[j];
          }
        }
        assert IsAlias(init, c) ==> IsAlias(cm, c) by {
          if IsAlias(init, c) {
            var j :| 0 <= j < |init| && Lower(init[j].0) == c;
            assert cm[j] == init[j];
          }
        }
        if r.Some? then
          var j :| 0 <= j < |init| && Lower(init[j].0) == c && r.value == init[j].1 &&
                   forall k :: j < k < |init| ==> Lower(init[k].0) != c;
          assert cm[j] == init[j];
          assert forall k :: j < k < |cm| ==> Lower(cm[k].0) != c by {
            forall k | j < k < |cm| ensures Lower(cm[k].0) != c {
              if k < |cm| - 1 { assert cm[k] == init[k]; }
            }
          }
          r
        else r
  }

  /** The name a header ends up with. */
  function Renamed(cm: ColumnMap, h: string): string {
    var c := NormalizeHeader(h);
    RenameTarget(cm, c).GetOr(c)
  }

  /** `normalize_columns(df, column_map)`: every header is normalised; a
      header whose normalised form is an alias takes the alias's canonical
      name, any other keeps its normalised form. The rows are untouched. */
  function NormalizeColumns(t: Table, cm: ColumnMap): (r: Table)
    ensures r.rows == t.rows
    ensures |r.columns| == |t.columns|
    ensures forall i :: 0 <= i < |t.columns| && !IsAlias(cm, NormalizeHeader(t.columns[i])) ==>
              r.columns[i] == NormalizeHeader(t.columns[i])
    ensures forall i :: 0 <= i < |t.columns| && IsAlias(cm, NormalizeHeader(t.columns[i])) ==>
              exists j :: 0 <= j < |cm| && Lower(cm[j].0) == NormalizeHeader(t.columns[i]) && r.columns[i] == cm[j].1
  {
    Table(Seqs.Map(t.columns, h => Renamed(cm, h)), t.rows)
  }

  /** Index of the first column named `name`. */
  function ColumnIndex(columns: seq<string>, name: string): (r: Option<nat>)
    ensures r.Some? <==> name in columns
    ensures r.Some? ==> r.value < |columns| && columns[r.value] == name &&
                        forall k :: 0 <= k < r.value ==> columns[k] != name
  {
    if |columns| == 0 then None
    else if columns[0] == name then Some(0)
    else
      match ColumnIndex(columns[1..], name)
      case None => None
      case Some(k) => Some(k + 1)
  }

  /** `if "type" not in df.columns: df["type"] = "Other"` */
  function WithDefaultType(n: Table): (r: Table)
    ensures "type" in r.columns
    ensures |r.columns| >= |n.columns| && r.columns[..|n.columns|] == n.columns
    ensures |r.rows| == |n.rows|
    ensures Rectangular(n) ==> Rectangular(r)
    ensures "type" in n.columns ==> r == n
    ensures "type" !in n.columns ==>
      r.columns == n.columns + ["type"] &&
      forall i :: 0 <= i < |n.rows| ==> r.rows[i] == n.rows[i] + [Some("Other")]
  {
    if "type" in n.columns then n
    else Table(n.columns + ["type"], Seqs.Map(n.rows, (row: seq<Option<string>>) => row + [Some("Other")]))
  }

  /** `load_cards` after reading the sheet. */
  function LoadCards(t: Table): (r: Table)
    ensures "type" in r.columns
    ensures |r.rows| == |t.rows|
    ensures Rectangular(t) ==> Rectangular(r)
  {
    WithDefaultType(NormalizeColumns(t, CardColumnMap))
  }

  /** A card row: the columns the catalog reads. Missing cells are None. */
  datatype Card = Card(
    name: Option<string>,
    setName: Option<string>,
    cardType: Option<string>,
    imageLink: Option<string>,
    marketPrice: Option<string>)

  /** The cell of `row` in the first column called `name`; None when there
      is no such column or the cell is missing. */
  function Cell(t: Table, row: seq<Option<string>>, name: string): Option<string> {
    match ColumnIndex(t.columns, name)
    case Some(k) => if k < |row| then row[k] else None
    case None => None
  }

  function CardOf(t: Table, row: seq<Option<string>>): Card {
    Card(Cell(t, row, "name"), Cell(t, row, "set"), Cell(t, row, "type"),
         Cell(t, row, "image_link"), Cell(t, row, "market_price"))
  }

  /** The card records of a normalised sheet, one per row, in row order. */
  function CardsOf(t: Table): (r: seq<Card>)
    ensures |r| == |t.rows|
    ensures forall i :: 0 <= i < |t.rows| ==> r[i] == CardOf(t, t.rows[i])
  {
    Seqs.Map(t.rows, row => CardOf(t, row))
  }

  // ----- lemmas -----

  /** Without a type column, every card of the completed sheet has type
      "Other". */
  lemma DefaultTypeIsOther(n: Table)
    requires Rectangular(n)
    requires "type" !in n.columns
    ensures forall c :: c in CardsOf(WithDefaultType(n)) ==> c.cardType == Some("Other")
  {
    var r := WithDefaultType(n);
    assert ColumnIndex(r.columns, "type") == Some(|n.columns|) by {
      assert r.columns[|n.columns|] == "type";
      assert forall k :: 0 <= k < |n.columns| ==> r.columns[k] == n.columns[k];
    }
    forall c | c in CardsOf(r) ensures c.cardType == Some("Other") {
      var i :| 0 <= i < |r.rows| && CardsOf(r)[i] == c;
      assert r.rows[i] == n.rows[i] + [Some("Other")];
    }
  }

  /** With a type column, the sheet is left exactly as it was. */
  lemma DefaultTypeKeeps(n: Table)
    requires "type" in n.columns
    ensures WithDefaultType(n) == n
  {
  }

  /** After `load_cards` the sheet has a type column, and when none of its
      headers normalised to "type" every card's type is "Other". Every
      other field of every card is what the normalised sheet holds. */
  lemma LoadCardsType(t: Table)
    requires Rectangular(t)
    ensures "type" in LoadCards(t).columns
    ensures "type" !in NormalizeColumns(t, CardColumnMap).columns ==>
      forall c :: c in CardsOf(LoadCards(t)) ==> c.cardType == Some("Other")
    ensures "type" in NormalizeColumns(t, CardColumnMap).columns ==>
      LoadCards(t) == NormalizeColumns(t, CardColumnMap)
    ensures |CardsOf(LoadCards(t))| == |t.rows|
    ensures forall i :: 0 <= i < |t.rows| ==>
      SameButType(CardsOf(LoadCards(t))[i], CardOf(NormalizeColumns(t, CardColumnMap), t.rows[i]))
  {
    var n := NormalizeColumns(t, CardColumnMap);
    assert Rectangular(n);
    if "type" !in n.columns {
      DefaultTypeIsOther(n);
    }
    DefaultTypeKeepsFields(n);
  }

  /** Completing the sheet with a type column leaves every card's other
      fields as they were. */
  lemma DefaultTypeKeepsFields(n: Table)
    requires Rectangular(n)
    ensures |CardsOf(WithDefaultType(n))| == |n.rows|
    ensures forall i :: 0 <= i < |n.rows| ==> SameButType(CardsOf(WithDefaultType(n))[i], CardOf(n, n.rows[i]))
  {
    var r := WithDefaultType(n);
    if "type" !in n.columns {
      forall i | 0 <= i < |n.rows|
        ensures SameButType(CardsOf(r)[i], CardOf(n, n.rows[i]))
      {
        var row := n.rows[i];
        assert r.rows[i] == row + [Some("Other")];
        CellAfterDefault(n, row, "name");
        CellAfterDefault(n, row, "set");
        CellAfterDefault(n, row, "image_link");
        CellAfterDefault(n, row, "market_price");
      }
    }
  }

  /** Two cards agree on every field but the type. */
  predicate SameButType(a: Card, b: Card) {
    a.name == b.name && a.setName == b.setName && a.imageLink == b.imageLink && a.marketPrice == b.marketPrice
  }

  /** Appending another column leaves the position of every other name. */
  lemma {:induction false} ColumnIndexAppend(columns: seq<string>, extra: string, name: string)
    requires name != extra
    ensures ColumnIndex(columns + [extra], name) == ColumnIndex(columns, name)
  {
    if |columns| > 0 {
      assert (columns + [extra])[1..] == columns[1..] + [extra];
      ColumnIndexAppend(columns[1..], extra, name);
    }
  }

  /** Adding the type column does not change what any other column reads. */
  lemma CellAfterDefault(n: Table, row: seq<Option<string>>, name: string)
    requires "type" !in n.columns && |row| == |n.columns| && name != "type"
    ensures Cell(WithDefaultType(n), row + [Some("Other")], name) == Cell(n, row, name)
  {
    ColumnIndexAppend(n.columns, "type", name);
  }

  /** Normalising a normalised header changes nothing. */
  lemma NormalizeHeaderIdempotent(h: string)
    ensures NormalizeHeader(NormalizeHeader(h)) == NormalizeHeader(h)
  {
    var s := Strip(h);
    StripStripped(h);
    LowerStripped(s);
    StripNoop(Lower(s));
    LowerIdempotent(s);
  }

  /** Every canonical name of `cm` is itself normalised and, if it is also
      an alias, renames to itself. */
  predicate Closed(cm: ColumnMap) {
    forall j :: 0 <= j < |cm| ==>
      NormalizeHeader(cm[j].1) == cm[j].1 &&
      (IsAlias(cm, cm[j].1) ==> RenameTarget(cm, cm[j].1) == Some(cm[j].1))
  }

  /** A name with no upper-case letter lower-cases to itself. */
  lemma LowerFixed(s: string)
    requires forall i :: 0 <= i < |s| ==> !IsUpper(s[i])
    ensures Lower(s) == s
  {
  }

  /** Lower-case letters and underscores: how the canonical names look. */
  predicate Word(s: string) {
    forall i :: 0 <= i < |s| ==> 'a' <= s[i] <= 'z' || s[i] == '_'
  }

  /** A canonical-looking name is already a normalised header. */
  lemma WordNormal(s: string)
    requires Word(s)
    ensures NormalizeHeader(s) == s
  {
    if |s| > 0 {
      assert !IsSpace(s[0]) && !IsSpace(s[|s| - 1]);
    }
    StripNoop(s);
    LowerFixed(s);
  }

  /** Each alias of the card sheet is written in lower case. */
  lemma CardAliasLower(j: nat)
    requires j < |CardColumnMap|
    ensures Lower(CardColumnMap[j].0) == CardColumnMap[j].0
  {
    LowerFixed(CardColumnMap[j].0);
  }

  /** An alias spelled like a canonical name maps to that name. */
  lemma CardAliasOfTarget(j: nat, k: nat)
    requires j < |CardColumnMap| && k < |CardColumnMap|
    requires CardColumnMap[k].0 == CardColumnMap[j].1
    ensures CardColumnMap[k].1 == CardColumnMap[j].1
  {
  }

  /** The card sheet's alias table is closed: every canonical name is
      already a normalised header, and the ones that are also aliases
      rename to themselves. */
  lemma CardColumnMapClosed()
    ensures Closed(CardColumnMap)
  {
    forall j | 0 <= j < |CardColumnMap|
      ensures NormalizeHeader(CardColumnMap[j].1) == CardColumnMap[j].1
      ensures IsAlias(CardColumnMap, CardColumnMap[j].1) ==>
        RenameTarget(CardColumnMap, CardColumnMap[j].1) == Some(CardColumnMap[j].1)
    {
      CardTargetClosed(j);
    }
  }

  /** One canonical name of the card sheet is a normalised header and,
      when it is an alias too, renames to itself. */
  lemma CardTargetClosed(j: nat)
    requires j < |CardColumnMap|
    ensures NormalizeHeader(CardColumnMap[j].1) == CardColumnMap[j].1
    ensures IsAlias(CardColumnMap, CardColumnMap[j].1) ==>
      RenameTarget(CardColumnMap, CardColumnMap[j].1) == Some(CardColumnMap[j].1)
  {
    var cm := CardColumnMap;
    var c := cm[j].1;
    assert Word(c);
    WordNormal(c);
    if IsAlias(cm, c) {
      var r := RenameTarget(cm, c);
      var k :| 0 <= k < |cm| && Lower(cm[k].0) == c && r.value == cm[k].1;
      CardAliasLower(k);
      CardAliasOfTarget(j, k);
    }
  }

  /** For a closed alias table, normalising a second time changes nothing. */
  lemma NormalizeColumnsIdempotent(t: Table, cm: ColumnMap)
    requires Closed(cm)
    ensures NormalizeColumns(NormalizeColumns(t, cm), cm) == NormalizeColumns(t, cm)
  {
    var once := NormalizeColumns(t, cm);
    var twice := NormalizeColumns(once, cm);
    forall i | 0 <= i < |t.columns|
      ensures twice.columns[i] == once.columns[i]
    {
      var c := NormalizeHeader(t.columns[i]);
      if IsAlias(cm, c) {
        var j :| 0 <= j < |cm| && Lower(cm[j].0) == c && once.columns[i] == cm[j].1;
        assert NormalizeHeader(once.columns[i]) == once.columns[i];
      } else {
        NormalizeHeaderIdempotent(t.columns[i]);
        assert NormalizeHeader(once.columns[i]) == c;
      }
    }
  }

  /** Normalising the card sheet's headers a second time changes nothing. */
  lemma CardHeadersIdempotent(t: Table)
    ensures NormalizeColumns(NormalizeColumns(t, CardColumnMap), CardColumnMap) == NormalizeColumns(t, CardColumnMap)
  {
    CardColumnMapClosed();
    NormalizeColumnsIdempotent(t, CardColumnMap);
  }
}

=== FILE: paging.dfy ===
/**
 * Pagination of a tab's sorted results and the per-tab page counter
 * driven by the Previous and Next buttons.
 */
module Paging {

  function Min(a: int, b: int): int { if a <= b then a else b }

  function Max(a: int, b: int): int { if a <= b then b else a }

  /** `(total_items - 1) // per_page + 1`. Dafny's `/` is Euclidean, which
      for a positive divisor is Python's floor division, so an empty
      result has 0 pages. */
  function TotalPages(n: nat, perPage: nat): (r: int)
    requires perPage > 0
    ensures n == 0 ==> r == 0
    ensures n > 0 ==> r >= 1 && (r - 1) * perPage < n <= r * perPage
  {
    var q := (n - 1) / perPage;
    var rem := (n - 1) % perPage;
    assert n - 1 == q * perPage + rem && 0 <= rem < perPage;
    assert n == 0 ==> q == -1;
    assert (q + 1) * perPage == q * perPage + perPage;
    q + 1
  }

  /** `type_df.iloc[start_idx:end_idx]` for page `page` (counted from 1). */
  function PageSlice<T>(items: seq<T>, page: int, perPage: nat): (r: seq<T>)
    requires page >= 1 && perPage > 0
    ensures |r| <= perPage
    ensures forall i :: 0 <= i < |r| ==> (page - 1) * perPage + i < |items| && r[i] == items[(page - 1) * perPage + i]
    ensures |r| == Max(0, Min(perPage, |items| - (page - 1) * perPage))
  {
    var start := PageStart(page, perPage);
    items[Min(start, |items|)..Min(start + perPage, |items|)]
  }

  /** `start_idx` of line 190: the position of the page's first row. */
  function PageStart(page: int, perPage: nat): (r: nat)
    requires page >= 1
    ensures r == (page - 1) * perPage
  {
    assert (page - 1) * perPage >= 0 by {
      assert page - 1 >= 0;
    }
    (page - 1) * perPage
  }

  /** A page is one contiguous stretch of the listing. */
  lemma PageIsSlice<T>(items: seq<T>, page: int, perPage: nat)
    requires page >= 1 && perPage > 0
    ensures Min(PageStart(page, perPage), |items|) <= Min(PageStart(page, perPage) + perPage, |items|)
    ensures PageSlice(items, page, perPage) ==
      items[Min(PageStart(page, perPage), |items|)..Min(PageStart(page, perPage) + perPage, |items|)]
  {
  }

  /** What a tab shows below its grid: one page of the listing, the
      listing's length and the page count. */
  datatype PageView<T> = PageView(items: seq<T>, totalItems: nat, totalPages: int)

  /** Lines 188-192: `total_items`, `total_pages` and the page's rows. */
  function Paginate<T>(rows: seq<T>, page: int, perPage: nat): (r: PageView<T>)
    requires page >= 1 && perPage > 0
    ensures r.totalItems == |rows|
    ensures r.totalPages == TotalPages(|rows|, perPage)
    ensures |r.items| == Max(0, Min(perPage, |rows| - PageStart(page, perPage)))
    ensures forall i :: 0 <= i < |r.items| ==>
      PageStart(page, perPage) + i < |rows| && r.items[i] == rows[PageStart(page, perPage) + i]
  {
    PageView(PageSlice(rows, page, perPage), |rows|, TotalPages(|rows|, perPage))
  }

  /** Pages 1 to k laid end to end. */
  function FirstPages<T>(items: seq<T>, perPage: nat, k: nat): seq<T>
    requires perPage > 0
  {
    if k == 0 then [] else FirstPages(items, perPage, k - 1) + PageSlice(items, k, perPage)
  }

  // ----- page counter -----

  /** The counter's value before any button press (lines 185-186). */
  const FirstPage: int := 1

  datatype Button = Previous | Next

  /** One button press: Previous moves back only from a page above 1,
      Next moves forward only from a page below `totalPages`. */
  function Press(page: int, b: Button, totalPages: int): (r: int)
    ensures page >= 1 ==> r >= 1
    ensures r <= Max(page, totalPages)
    ensures r == page || (b == Previous && r == page - 1) || (b == Next && r == page + 1)
    ensures b == Previous && r != page ==> page > 1
    ensures b == Next && r != page ==> page < totalPages
    ensures b == Previous && page > 1 ==> r == page - 1
    ensures b == Next && page < totalPages ==> r == page + 1
  {
    match b
    case Previous => if page > 1 then page - 1 else page
    case Next => if page < totalPages then page + 1 else page
  }

  /** A press together with the page count shown when it was made. */
  datatype Event = Event(button: Button, totalPages: int)

  function Run(page: int, events: seq<Event>): int
    decreases |events|
  {
    if |events| == 0 then page
    else Run(Press(page, events[0].button, events[0].totalPages), events[1..])
  }

  /** The per-tab counters, keyed by tab label. A tab never seen is on the
      first page. */
  type Session = map<string, int>

  function PageOf(s: Session, tab: string): int {
    if tab in s then s[tab] else FirstPage
  }

  /** A press in one tab: only that tab's counter changes. */
  function PressIn(s: Session, tab: string, b: Button, totalPages: int): (r: Session)
    ensures PageOf(r, tab) == Press(PageOf(s, tab), b, totalPages)
    ensures forall other :: other != tab ==> PageOf(r, other) == PageOf(s, other)
  {
    s[tab := Press(PageOf(s, tab), b, totalPages)]
  }

  // ----- lemmas -----

  lemma {:induction false} FirstPagesPrefix<T>(items: seq<T>, perPage: nat, k: nat)
    requires perPage > 0
    ensures FirstPages(items, perPage, k) == items[..Min(k * perPage, |items|)]
  {
    if k > 0 {
      var prev := FirstPages(items, perPage, k - 1);
      var page := PageSlice(items, k, perPage);
      FirstPagesPrefix(items, perPage, k - 1);
      PageIsSlice(items, k, perPage);
      NextPageStart(k, perPage);
      var a := Min(PageStart(k, perPage), |items|);
      var b := Min(PageStart(k, perPage) + perPage, |items|);
      assert prev == items[..a];
      assert page == items[a..b];
      PrefixThenSlice(items, a, b);
      assert FirstPages(items, perPage, k) == prev + page;
    }
  }

  /** Page `k` ends where page `k + 1` starts. */
  lemma NextPageStart(k: nat, perPage: nat)
    requires k >= 1
    ensures PageStart(k, perPage) + perPage == k * perPage
  {
  }

  lemma PrefixThenSlice<T>(items: seq<T>, a: nat, b: nat)
    requires a <= b <= |items|
    ensures items[..a] + items[a..b] == items[..b]
  {
  }

  /** The paging round trip: pages 1 to `total_pages` laid end to end are
      the whole result, each item once and in order. */
  lemma PagesRoundTrip<T>(items: seq<T>, perPage: nat)
    requires perPage > 0
    ensures FirstPages(items, perPage, Max(0, TotalPages(|items|, perPage))) == items
  {
    var n := TotalPages(|items|, perPage);
    FirstPagesPrefix(items, perPage, Max(0, n));
  }

  /** Every page before the last is full, and the last is not empty. */
  lemma PageSizes<T>(items: seq<T>, perPage: nat, page: int)
    requires perPage > 0 && 1 <= page <= TotalPages(|items|, perPage)
    ensures page < TotalPages(|items|, perPage) ==> |PageSlice(items, page, perPage)| == perPage
    ensures |PageSlice(items, page, perPage)| > 0
  {
    var n := TotalPages(|items|, perPage);
    var start := PageStart(page, perPage);
    var last := PageStart(n, perPage);
    MulMonotone(page - 1, n - 1, perPage);
    assert start <= last < |items|;
    if page < n {
      NextPageStart(page, perPage);
      MulMonotone(page, n - 1, perPage);
      assert start + perPage <= last;
    }
  }

  lemma MulMonotone(a: nat, b: nat, c: nat)
    requires a <= b
    ensures a * c <= b * c
  {
  }

  /** A page beyond the last (say, after the filters shrank the result)
      is empty rather than an error. */
  lemma PageBeyondLastIsEmpty<T>(items: seq<T>, perPage: nat, page: int)
    requires perPage > 0 && page >= 1 && page > TotalPages(|items|, perPage)
    ensures PageSlice(items, page, perPage) == []
  {
    var n := TotalPages(|items|, perPage);
    if |items| > 0 {
      assert (page - 1) * perPage >= n * perPage;
    }
  }

  /** However the buttons are pressed, the counter never drops below 1, and
      it never exceeds the larger of its start and every page count shown. */
  lemma {:induction false} RunBounds(page: int, events: seq<Event>, bound: int)
    requires page >= 1 && page <= bound
    requires forall i :: 0 <= i < |events| ==> events[i].totalPages <= bound
    ensures 1 <= Run(page, events) <= bound
    decreases |events|
  {
    if |events| > 0 {
      RunBounds(Press(page, events[0].button, events[0].totalPages), events[1..], bound);
    }
  }

  /** Every counter of a session that starts empty stays at 1 or above. */
  predicate ValidSession(s: Session) {
    forall tab :: tab in s ==> s[tab] >= 1
  }

  lemma PressInKeepsValid(s: Session, tab: string, b: Button, totalPages: int)
    requires ValidSession(s)
    ensures ValidSession(PressIn(s, tab, b, totalPages))
  {
  }
}

=== FILE: price.dfy ===
/**
 * `clean_price`: turns a raw market-price cell into a number. Missing
 * cells and text that is not a decimal number after removing `$` and `,`
 * and surrounding whitespace give 0.0.
 *
 * Python's `float()` is modelled on plain decimal literals: an optional
 * sign, digits, and an optional fraction part after one dot.
 */
module Price {
  import opened Wrappers
  import opened Text
  import Seqs

  predicate IsDigit(c: char) { '0' <= c <= '9' }

  predicate AllDigits(s: string) {
    forall i :: 0 <= i < |s| ==> IsDigit(s[i])
  }

  function DigitValue(c: char): nat
    requires IsDigit(c)
  {
    c as int - '0' as int
  }

  /** The number a string of decimal digits denotes (0 for ""). */
  function DigitsValue(s: string): nat
    requires AllDigits(s)
    decreases |s|
  {
    if |s| == 0 then 0 else DigitsValue(s[..|s| - 1]) * 10 + DigitValue(s[|s| - 1])
  }

  function Pow10(k: nat): (r: nat)
    ensures r >= 1
  {
    if k == 0 then 1 else 10 * Pow10(k - 1)
  }

  /** The value of the digits after the decimal point. */
  function FractionValue(s: string): real
    requires AllDigits(s)
  {
    DigitsValue(s) as real / Pow10(|s|) as real
  }

  datatype Sign = NoSign | Plus | Minus

  /** A decimal literal as `float()` reads it: sign, integer digits, an
      optional dot and fraction digits. */
  datatype Decimal = Decimal(sign: Sign, whole: string, hasDot: bool, fraction: string)

  predicate WellFormed(d: Decimal) {
    && AllDigits(d.whole)
    && AllDigits(d.fraction)
    && (|d.whole| > 0 || |d.fraction| > 0)
    && (d.hasDot || |d.fraction| == 0)
  }

  function SignText(s: Sign): string {
    match s
    case NoSign => ""
    case Plus => "+"
    case Minus => "-"
  }

  /** The text of a decimal literal. */
  function Render(d: Decimal): string {
    SignText(d.sign) + d.whole + (if d.hasDot then "." + d.fraction else "")
  }

  function Value(d: Decimal): real
    requires WellFormed(d)
  {
    var magnitude := DigitsValue(d.whole) as real + FractionValue(d.fraction);
    if d.sign == Minus then -magnitude else magnitude
  }

  /** Index of the first '.', or |s| when there is none. */
  function IndexOfDot(s: string): (k: nat)
    ensures k <= |s|
    ensures forall i :: 0 <= i < k ==> s[i] != '.'
    ensures k < |s| ==> s[k] == '.'
  {
    if |s| == 0 || s[0] == '.' then 0 else 1 + IndexOfDot(s[1..])
  }

  /** Split `s` into sign, integer part, dot and fraction part. */
  function Decompose(s: string): (d: Decimal)
    ensures Render(d) == s
  {
    if |s| > 0 && s[0] == '-' then
      assert s == "-" + s[1..];
      DecomposeBody(Minus, s[1..])
    else if |s| > 0 && s[0] == '+' then
      assert s == "+" + s[1..];
      DecomposeBody(Plus, s[1..])
    else
      DecomposeBody(NoSign, s)
  }

  /** Split an unsigned body at its first dot. */
  function DecomposeBody(sign: Sign, body: string): (d: Decimal)
    ensures d.sign == sign
    ensures Render(d) == SignText(sign) + body
  {
    var k := IndexOfDot(body);
    if k < |body| then
      assert body == body[..k] + "." + body[k + 1..];
      Decimal(sign, body[..k], true, body[k + 1..])
    else
      assert body[..k] == body;
      Decimal(sign, body, false, "")
  }

  /** `float(s)` on a decimal literal; None where Python raises. The result
      is present exactly when `s` is the text of a well-formed literal, and
      it is then that literal's value. */
  function ParseNumber(s: string): (r: Option<real>)
    ensures r.Some? ==> exists d :: WellFormed(d) && Render(d) == s && Value(d) == r.value
    ensures forall d :: WellFormed(d) && Render(d) == s ==> r == Some(Value(d))
  {
    var d := Decompose(s);
    assert forall e :: WellFormed(e) && Render(e) == s ==> e == d by {
      forall e | WellFormed(e) && Render(e) == s ensures e == d {
        DecomposeUnique(e);
      }
    }
    if WellFormed(d) then Some(Value(d)) else None
  }

  /** Characters `clean_price` keeps: all but `$` and `,`. */
  predicate Kept(c: char) {
    c != '$' && c != ','
  }

  /** The text `clean_price` hands to `float()`. */
  function Cleaned(raw: string): (r: string)
    ensures Stripped(r) && '$' !in r && ',' !in r
  {
    var kept := Seqs.Filter(raw, Kept);
    StripStripped(kept);
    StripKeepsInner(kept);
    Strip(kept)
  }

  /** The cleaned text is the cell without its `$` and `,` characters,
      with only the whitespace at the two ends removed: inner spaces stay,
      so `"1 2"` is not a number. */
  lemma CleanedFrame(raw: string)
    ensures exists a, b :: AllSpace(a) && AllSpace(b) && Seqs.Filter(raw, Kept) == a + Cleaned(raw) + b
  {
    var a, b := StripParts(Seqs.Filter(raw, Kept));
    assert Seqs.Filter(raw, Kept) == a + Cleaned(raw) + b;
  }

  /** Cleaning only removes characters: what is left comes from the cell,
      and every non-space character other than `$` and `,` survives. */
  lemma CleanedChars(raw: string)
    ensures forall c :: c in Cleaned(raw) ==> c in raw
    ensures forall c :: c in raw && Kept(c) && !IsSpace(c) ==> c in Cleaned(raw)
  {
    StripKeepsInner(Seqs.Filter(raw, Kept));
  }

  /** `clean_price(value)`: a missing cell gives 0.0; otherwise the value
      of the decimal literal left after cleaning, or 0.0 if there is none. */
  function CleanPrice(cell: Option<string>): (r: real)
    ensures cell.None? ==> r == 0.0
    ensures cell.Some? && !(exists d :: WellFormed(d) && Render(d) == Cleaned(cell.value)) ==> r == 0.0
    ensures forall d :: cell.Some? && WellFormed(d) && Render(d) == Cleaned(cell.value) ==> r == Value(d)
  {
    match cell
    case None => 0.0
    case Some(raw) => ParseNumber(Cleaned(raw)).GetOr(0.0)
  }

  // ----- rendering numbers the way a price sheet shows them -----

  function Digit(n: nat): char
    requires n < 10
  {
    ('0' as int + n) as char
  }

  /** Decimal digits of `n`, most significant first, no leading zeros. */
  function NatToDigits(n: nat): (s: string)
    ensures |s| > 0 && AllDigits(s)
    ensures forall i :: 0 <= i < |s| ==> s[i] != '.' && s[i] != ',' && s[i] != '$' && !IsSpace(s[i])
  {
    if n < 10 then [Digit(n)] else NatToDigits(n / 10) + [Digit(n % 10)]
  }

  /** Two-digit cents, zero-padded. */
  function Cents(c: nat): (s: string)
    requires c < 100
  {
    [Digit(c / 10), Digit(c % 10)]
  }

  /** Digits with a ',' before every group of three from the right. */
  function GroupThousands(s: string): string
    decreases |s|
  {
    if |s| <= 3 then s else GroupThousands(s[..|s| - 3]) + "," + s[|s| - 3..]
  }

  /** A price as a sheet displays it, e.g. "$1,234.56". */
  function DollarText(dollars: nat, cents: nat): string
    requires cents < 100
  {
    "$" + GroupThousands(NatToDigits(dollars)) + "." + Cents(cents)
  }

  // ----- lemmas -----

  /** The decomposition of a literal's text is the literal itself. */
  lemma DecomposeUnique(d: Decimal)
    requires WellFormed(d)
    ensures Decompose(Render(d)) == d
  {
    var rest := if d.hasDot then "." + d.fraction else "";
    var body := d.whole + rest;
    assert |body| > 0 && body[0] != '-' && body[0] != '+';
    IndexOfDotAfterDigits(d.whole, rest);
    assert body[..|d.whole|] == d.whole;
    if d.hasDot {
      assert body[|d.whole| + 1..] == d.fraction;
    }
    assert DecomposeBody(d.sign, body) == d;
    match d.sign
    case NoSign =>
      assert Render(d) == body;
    case Plus =>
      assert Render(d) == "+" + body;
      assert Render(d)[1..] == body;
    case Minus =>
      assert Render(d) == "-" + body;
      assert Render(d)[1..] == body;
  }

  lemma {:induction false} IndexOfDotAfterDigits(w: string, rest: string)
    requires AllDigits(w)
    requires |rest| == 0 || rest[0] == '.'
    ensures IndexOfDot(w + rest) == |w|
    decreases |w|
  {
    if |w| == 0 {
      assert w + rest == rest;
    } else {
      assert (w + rest)[0] == w[0] && IsDigit(w[0]);
      assert (w + rest)[1..] == w[1..] + rest;
      IndexOfDotAfterDigits(w[1..], rest);
    }
  }

  lemma {:induction false} DigitsValueOfNat(n: nat)
    ensures DigitsValue(NatToDigits(n)) == n
  {
    if n >= 10 {
      var s := NatToDigits(n);
      assert s[..|s| - 1] == NatToDigits(n / 10);
      DigitsValueOfNat(n / 10);
    }
  }

  /** A `$` or `,` contributes nothing to the cleaned text. */
  lemma DropSymbol(x: string, c: char, y: string)
    requires !Kept(c)
    ensures Seqs.Filter(x + [c] + y, Kept) == Seqs.Filter(x, Kept) + Seqs.Filter(y, Kept)
  {
    assert Seqs.Filter([c], Kept) == [];
    assert Seqs.Filter(x + [c], Kept) == Seqs.Filter(x, Kept) by {
      Seqs.FilterAppend(x, [c], Kept);
    }
    Seqs.FilterAppend(x + [c], y, Kept);
  }

  lemma {:induction false} UngroupThousands(s: string)
    requires forall c :: c in s ==> Kept(c)
    ensures Seqs.Filter(GroupThousands(s), Kept) == s
    decreases |s|
  {
    if |s| <= 3 {
      Seqs.FilterAll(s, Kept);
    } else {
      var a, b := s[..|s| - 3], s[|s| - 3..];
      var g := GroupThousands(a);
      assert Seqs.Filter(g, Kept) == a by { UngroupThousands(a); }
      assert Seqs.Filter(b, Kept) == b by { Seqs.FilterAll(b, Kept); }
      assert Seqs.Filter(g + [','] + b, Kept) == a + b by { DropSymbol(g, ',', b); }
      assert GroupThousands(s) == g + [','] + b;
      assert a + b == s;
    }
  }

  /** A cell whose cleaned text is a literal reads as that literal's value. */
  lemma CleanPriceOfLiteral(raw: string, d: Decimal)
    requires WellFormed(d) && Cleaned(raw) == Render(d)
    ensures CleanPrice(Some(raw)) == Value(d)
  {
  }

  lemma CentsValue(cents: nat)
    requires cents < 100
    ensures AllDigits(Cents(cents)) && DigitsValue(Cents(cents)) == cents
  {
    var t := Cents(cents);
    assert t[..1] == [Digit(cents / 10)];
    assert DigitValue(Digit(cents / 10)) == cents / 10;
    assert DigitValue(Digit(cents % 10)) == cents % 10;
    assert DigitsValue(t[..1]) == cents / 10;
  }

  /** Dropping `$` and `,` from a sheet-formatted price leaves the plain
      digits, the point and the cents. */
  lemma KeptDollarText(dollars: nat, cents: nat)
    requires cents < 100
    ensures Seqs.Filter(DollarText(dollars, cents), Kept) == NatToDigits(dollars) + "." + Cents(cents)
  {
    var digits := NatToDigits(dollars);
    var tail := "." + Cents(cents);
    var grouped := GroupThousands(digits);
    var text := DollarText(dollars, cents);
    assert text[0] == '$' && text[1..] == grouped + tail;
    assert Seqs.Filter(text, Kept) == Seqs.Filter(grouped + tail, Kept);
    assert Seqs.Filter(grouped + tail, Kept) == digits + tail by {
      Seqs.FilterAppend(grouped, tail, Kept);
      forall c | c in digits ensures Kept(c) {
        var i :| 0 <= i < |digits| && digits[i] == c;
      }
      UngroupThousands(digits);
      Seqs.FilterAll(tail, Kept);
    }
    assert digits + tail == digits + "." + Cents(cents);
  }

  /** Cleaning drops the `$` and the thousands separators. */
  lemma CleanedDollarText(dollars: nat, cents: nat)
    requires cents < 100
    ensures Cleaned(DollarText(dollars, cents)) == NatToDigits(dollars) + "." + Cents(cents)
  {
    var plain := NatToDigits(dollars) + "." + Cents(cents);
    KeptDollarText(dollars, cents);
    assert !IsSpace(plain[0]) && !IsSpace(plain[|plain| - 1]);
    StripNoop(plain);
  }

  /** Cleaning a sheet-formatted price gives back its amount: "$1,234.56"
      reads as 1234.56. */
  lemma CleanPriceOfDollarText(dollars: nat, cents: nat)
    requires cents < 100
    ensures CleanPrice(Some(DollarText(dollars, cents))) == dollars as real + cents as real / 100.0
  {
    var d := Decimal(NoSign, NatToDigits(dollars), true, Cents(cents));
    CleanedDollarText(dollars, cents);
    assert Render(d) == Cleaned(DollarText(dollars, cents));
    DigitsValueOfNat(dollars);
    CentsValue(cents);
    assert Pow10(2) == 100;
    assert Value(d) == dollars as real + cents as real / 100.0;
    CleanPriceOfLiteral(DollarText(dollars, cents), d);
  }

  /** `$` and `,` anywhere in the cell are ignored: "$12" reads as "12". */
  lemma CleanPriceIgnoresSymbol(a: string, b: string, symbol: char)
    requires !Kept(symbol)
    ensures CleanPrice(Some(a + [symbol] + b)) == CleanPrice(Some(a + b))
  {
    DropSymbol(a, symbol, b);
    Seqs.FilterAppend(a, b, Kept);
    assert Cleaned(a + [symbol] + b) == Cleaned(a + b);
  }

  lemma CleanPriceMissing()
    ensures CleanPrice(None) == 0.0
  {
  }

  lemma CleanPriceSheetExample()
    ensures CleanPrice(Some("$1,234.56")) == 1234.56
  {
    assert DollarText(1234, 56) == "$1,234.56";
    CleanPriceOfDollarText(1234, 56);
  }

  /** A literal always contains a digit. */
  lemma RenderHasDigit(d: Decimal)
    requires WellFormed(d)
    ensures exists i :: 0 <= i < |Render(d)| && IsDigit(Render(d)[i])
  {
    var sign := SignText(d.sign);
    if |d.whole| > 0 {
      assert Render(d)[|sign|] == d.whole[0];
    } else {
      assert Render(d)[|sign| + 1] == d.fraction[0];
    }
  }

  /** Text without a digit is not a number: "abc" and "" read as 0.0. */
  lemma CleanPriceNoDigits(raw: string)
    requires forall i :: 0 <= i < |raw| ==> !IsDigit(raw[i])
    ensures CleanPrice(Some(raw)) == 0.0
  {
    var cleaned := Cleaned(raw);
    CleanedChars(raw);
    forall i | 0 <= i < |cleaned| ensures !IsDigit(cleaned[i]) {
      assert cleaned[i] in cleaned;
    }
    forall d | WellFormed(d) && Render(d) == cleaned ensures false {
      RenderHasDigit(d);
    }
  }

  lemma CleanPriceWord()
    ensures CleanPrice(Some("abc")) == 0.0
    ensures CleanPrice(Some("")) == 0.0
  {
    CleanPriceNoDigits("abc");
    CleanPriceNoDigits("");
  }

  /** Leading whitespace in the cell is ignored. */
  lemma CleanPriceIgnoresLeadingSpace(c: char, raw: string)
    requires IsSpace(c)
    ensures CleanPrice(Some([c] + raw)) == CleanPrice(Some(raw))
  {
    Seqs.FilterAppend([c], raw, Kept);
    assert Seqs.Filter([c], Kept) == [c];
    var k := Seqs.Filter(raw, Kept);
    assert TrimStart([c] + k) == TrimStart(k) by {
      assert ([c] + k)[1..] == k;
    }
  }
}

=== FILE: query.dfy ===
/**
 * One category tab's query: select the tab's listed cards, compute the
 * price slider's extent, apply the set, name-search and price filters,
 * sort, and cut out the current page.
 */
module Query {
  import opened Wrappers
  import opened Text
  import opened Seqs
  import opened Sorting
  import opened Price
  import opened Ingest
  import opened Categories
  import opened Paging

  /** The four entries of the "Sort By" box. */
  datatype SortOption = NameAsc | NameDesc | PriceAsc | PriceDesc

  /** A tab's widget values: the set box ("All" or a set name), the search
      text and the sort box. */
  datatype Selection = Selection(selectedSet: string, search: string, sort: SortOption)

  /** `market_price_clean` (line 121): the card's market-price cell read by
      `clean_price`. */
  function PriceOf(c: Card): real {
    CleanPrice(c.marketPrice)
  }

  /** A card's price read off its market-price cell: 0.0 when the cell is
      missing or its cleaned text is no decimal literal, and otherwise
      the literal's value. */
  lemma PriceOfCell(c: Card)
    ensures c.marketPrice.None? ==> PriceOf(c) == 0.0
    ensures forall d :: c.marketPrice.Some? && WellFormed(d) && Render(d) == Cleaned(c.marketPrice.value) ==> PriceOf(c) == Value(d)
    ensures c.marketPrice.Some? && !(exists d :: WellFormed(d) && Render(d) == Cleaned(c.marketPrice.value)) ==> PriceOf(c) == 0.0
  {
  }

  /** The tab test of line 120 as written: the card's type, lower-cased
      but not stripped, equals the tab label lower-cased. */
  predicate InTabAsWritten(c: Card, tab: string) {
    c.cardType.Some? && Lower(c.cardType.value) == Lower(tab)
  }

  /** The tab test with the type stripped first, as the labels were. */
  predicate InTab(c: Card, tab: string) {
    c.cardType.Some? && Lower(Strip(c.cardType.value)) == Lower(tab)
  }

  /** `.dropna(subset=["image_link", "name"])` keeps the card. */
  predicate Listed(c: Card) {
    c.imageLink.Some? && c.name.Some?
  }

  predicate InTabViewAsWritten(tab: string, c: Card) {
    InTabAsWritten(c, tab) && Listed(c)
  }

  predicate InTabView(tab: string, c: Card) {
    InTab(c, tab) && Listed(c)
  }

  /** `type_df` of line 120 as written: every matching row, each copy
      of a repeated row included, in sheet order. */
  function TabViewAsWritten(cards: seq<Card>, tab: string): (r: seq<Card>)
    ensures IsSubseq(r, cards)
    ensures forall c :: c in r <==> c in cards && InTabAsWritten(c, tab) && Listed(c)
    ensures forall c :: multiset(r)[c] == if InTabAsWritten(c, tab) && Listed(c) then multiset(cards)[c] else 0
  {
    FilterIsSubseq(cards, c => InTabViewAsWritten(tab, c));
    FilterCount(cards, c => InTabViewAsWritten(tab, c));
    Filter(cards, c => InTabViewAsWritten(tab, c))
  }

  /** A tab's cards: those of its category that have an image link and a
      name, in sheet order. */
  function TabView(cards: seq<Card>, tab: string): (r: seq<Card>)
    ensures IsSubseq(r, cards)
    ensures forall c :: c in r <==> c in cards && InTab(c, tab) && Listed(c)
    ensures forall c :: multiset(r)[c] == if InTab(c, tab) && Listed(c) then multiset(cards)[c] else 0
  {
    FilterIsSubseq(cards, c => InTabView(tab, c));
    FilterCount(cards, c => InTabView(tab, c));
    Filter(cards, c => InTabView(tab, c))
  }

  // ----- price slider -----

  /** `type_df["market_price_clean"].min()` */
  function MinPrice(view: seq<Card>): (r: real)
    requires |view| > 0
    ensures forall c :: c in view ==> r <= PriceOf(c)
    ensures exists c :: c in view && PriceOf(c) == r
  {
    if |view| == 1 then PriceOf(view[0])
    else
      var m := MinPrice(view[1..]);
      assert forall c :: c in view <==> c == view[0] || c in view[1..];
      if PriceOf(view[0]) <= m then PriceOf(view[0]) else m
  }

  /** `type_df["market_price_clean"].max()` */
  function MaxPrice(view: seq<Card>): (r: real)
    requires |view| > 0
    ensures forall c :: c in view ==> PriceOf(c) <= r
    ensures exists c :: c in view && PriceOf(c) == r
  {
    if |view| == 1 then PriceOf(view[0])
    else
      var m := MaxPrice(view[1..]);
      assert forall c :: c in view <==> c == view[0] || c in view[1..];
      if PriceOf(view[0]) >= m then PriceOf(view[0]) else m
  }

  /** The price range the filter uses: the single price when every card of
      the tab has the same price (no slider is shown), otherwise the
      slider's value. */
  function PriceRange(view: seq<Card>, slider: (real, real)): (r: (real, real))
    requires |view| > 0
    ensures MinPrice(view) == MaxPrice(view) ==> r.0 == r.1 && forall c :: c in view ==> PriceOf(c) == r.0
    ensures MinPrice(view) != MaxPrice(view) ==> r == slider
  {
    if MinPrice(view) == MaxPrice(view) then (MinPrice(view), MaxPrice(view)) else slider
  }

  // ----- filters -----

  predicate SetMatches(sel: Selection, c: Card) {
    sel.selectedSet != "All" ==> c.setName == Some(sel.selectedSet)
  }

  predicate NameMatches(sel: Selection, c: Card) {
    Strip(sel.search) != "" ==> c.name.Some? && ContainsIgnoreCase(c.name.value, sel.search)
  }

  predicate PriceWithin(lo: real, hi: real, c: Card) {
    lo <= PriceOf(c) <= hi
  }

  /** All three filters at once. */
  predicate Passes(sel: Selection, lo: real, hi: real, c: Card) {
    SetMatches(sel, c) && NameMatches(sel, c) && PriceWithin(lo, hi, c)
  }

  predicate InSet(s: string, c: Card) { c.setName == Some(s) }

  predicate NameContains(q: string, c: Card) {
    c.name.Some? && ContainsIgnoreCase(c.name.value, q)
  }

  /** Lines 165-166: the set box, unless it is on "All". */
  function BySet(rows: seq<Card>, sel: Selection): (r: seq<Card>)
    ensures IsSubseq(r, rows)
    ensures forall c :: c in r <==> c in rows && SetMatches(sel, c)
    ensures forall c :: multiset(r)[c] == if SetMatches(sel, c) then multiset(rows)[c] else 0
  {
    if sel.selectedSet != "All" then
      FilterIsSubseq(rows, c => InSet(sel.selectedSet, c));
      FilterCount(rows, c => InSet(sel.selectedSet, c));
      Filter(rows, c => InSet(sel.selectedSet, c))
    else
      SubseqReflexive(rows);
      rows
  }

  /** Lines 167-168: the search text, unless it is blank. */
  function ByName(rows: seq<Card>, sel: Selection): (r: seq<Card>)
    ensures IsSubseq(r, rows)
    ensures forall c :: c in r <==> c in rows && NameMatches(sel, c)
    ensures forall c :: multiset(r)[c] == if NameMatches(sel, c) then multiset(rows)[c] else 0
  {
    if Strip(sel.search) != "" then
      FilterIsSubseq(rows, c => NameContains(sel.search, c));
      FilterCount(rows, c => NameContains(sel.search, c));
      Filter(rows, c => NameContains(sel.search, c))
    else
      SubseqReflexive(rows);
      rows
  }

  /** Line 169: the inclusive price range. */
  function ByPrice(rows: seq<Card>, lo: real, hi: real): (r: seq<Card>)
    ensures IsSubseq(r, rows)
    ensures forall c :: c in r <==> c in rows && PriceWithin(lo, hi, c)
    ensures forall c :: multiset(r)[c] == if PriceWithin(lo, hi, c) then multiset(rows)[c] else 0
  {
    FilterIsSubseq(rows, c => PriceWithin(lo, hi, c));
    FilterCount(rows, c => PriceWithin(lo, hi, c));
    Filter(rows, c => PriceWithin(lo, hi, c))
  }

  /** Lines 165-169: the set filter, then the search filter, then the
      price filter, each keeping sheet order. */
  function ApplyFilters(view: seq<Card>, sel: Selection, lo: real, hi: real): (r: seq<Card>)
    ensures IsSubseq(r, view)
    ensures forall c :: c in r <==> c in view && Passes(sel, lo, hi, c)
    ensures forall c :: multiset(r)[c] == if Passes(sel, lo, hi, c) then multiset(view)[c] else 0
  {
    var bySet := BySet(view, sel);
    var byName := ByName(bySet, sel);
    SubseqTransitive(byName, bySet, view);
    var r := ByPrice(byName, lo, hi);
    SubseqTransitive(r, byName, view);
    r
  }

  // ----- sorting -----

  function NameKey(c: Card): Key {
    match c.name
    case Some(n) => Str(n)
    case None => Missing
  }

  function SetKey(c: Card): Key {
    match c.setName
    case Some(s) => Str(s)
    case None => Missing
  }

  function PriceKey(c: Card): Key {
    Num(PriceOf(c))
  }

  /** `a` may be listed before `b` under the chosen sort. */
  predicate InOrder(o: SortOption, a: Card, b: Card)
    requires a.name.Some? && b.name.Some?
  {
    match o
    case NameAsc => LexLe(a.name.value, b.name.value)
    case NameDesc => LexLe(b.name.value, a.name.value)
    case PriceAsc => PriceOf(a) <= PriceOf(b)
    case PriceDesc => PriceOf(b) <= PriceOf(a)
  }

  predicate Named(rows: seq<Card>) {
    forall c :: c in rows ==> c.name.Some?
  }

  predicate Ordered(o: SortOption, rows: seq<Card>)
    requires Named(rows)
  {
    forall i, j :: 0 <= i < j < |rows| ==> InOrder(o, rows[i], rows[j])
  }

  /** The column the option sorts on. */
  function SortKey(o: SortOption): Card -> Key {
    if o.NameAsc? || o.NameDesc? then NameKey else PriceKey
  }

  /** Whether the option sorts descending. */
  predicate Descending(o: SortOption) {
    o.NameDesc? || o.PriceDesc?
  }

  /** The user's sort (lines 173-180): a permutation of the rows ordered
      by the chosen key and direction. */
  function UserSort(rows: seq<Card>, o: SortOption): (r: seq<Card>)
    ensures multiset(r) == multiset(rows)
    ensures Named(rows) ==> Named(r) && Ordered(o, r)
  {
    var r := SortBy(rows, SortKey(o), Descending(o));
    SortedIsOrdered(rows, r, o);
    r
  }

  /** A permutation of named rows sorted on the option's key is ordered
      the way the option says. */
  lemma SortedIsOrdered(rows: seq<Card>, r: seq<Card>, o: SortOption)
    requires multiset(r) == multiset(rows)
    requires SortedBy(r, SortKey(o), Descending(o))
    ensures Named(rows) ==> Named(r) && Ordered(o, r)
  {
    if Named(rows) {
      forall c | c in r ensures c.name.Some? {
        assert c in multiset(r);
      }
      forall i, j | 0 <= i < j < |r| ensures InOrder(o, r[i], r[j]) {
        assert Precedes(Descending(o), SortKey(o)(r[i]), SortKey(o)(r[j]));
      }
    }
  }

  /** Lines 170-180: with the set box on "All", a `set`-descending sort
      first; then the user's sort. The result is a permutation of the rows
      ordered by the chosen key; the pre-sort happens only on "All". */
  function SortRows(rows: seq<Card>, sel: Selection): (r: seq<Card>)
    ensures multiset(r) == multiset(rows)
    ensures Named(rows) ==> Named(r) && Ordered(sel.sort, r)
    ensures sel.selectedSet != "All" ==> r == UserSort(rows, sel.sort)
  {
    var pre := if sel.selectedSet == "All" then SortBy(rows, SetKey, true) else rows;
    assert Named(rows) ==> Named(pre) by {
      forall c | Named(rows) && c in pre ensures c.name.Some? {
        assert c in multiset(pre);
      }
    }
    UserSort(pre, sel.sort)
  }

  // ----- the whole tab -----

  /** A card the tab lists under the current widget values. */
  predicate Shown(cards: seq<Card>, tab: string, sel: Selection, lo: real, hi: real, c: Card) {
    c in cards && InTab(c, tab) && Listed(c) && Passes(sel, lo, hi, c)
  }

  /** The card belongs to the tab and passes its filters with price range
      `range`. */
  predicate ShownBy(tab: string, sel: Selection, range: (real, real), c: Card) {
    InTab(c, tab) && Listed(c) && Passes(sel, range.0, range.1, c)
  }

  /** Every card of the view has the same price as its first card. */
  predicate OnePrice(view: seq<Card>)
    requires |view| > 0
  {
    forall c :: c in view ==> PriceOf(c) == PriceOf(view[0])
  }

  /** Lines 150-162 for one tab: the range its price filter uses. When all
      the tab's cards share one price, both ends are that price; when two
      of them differ, the range is the slider's value. */
  function TabRange(cards: seq<Card>, tab: string, slider: (real, real)): (r: (real, real))
    requires |TabView(cards, tab)| > 0
    ensures OnePrice(TabView(cards, tab)) ==> r == (PriceOf(TabView(cards, tab)[0]), PriceOf(TabView(cards, tab)[0]))
    ensures !OnePrice(TabView(cards, tab)) ==> r == slider
  {
    var view := TabView(cards, tab);
    OnePriceRange(view, slider);
    PriceRange(view, slider)
  }

  /** A single shared price collapses the range to it; otherwise the
      lowest and highest prices differ and the slider decides. */
  lemma OnePriceRange(view: seq<Card>, slider: (real, real))
    requires |view| > 0
    ensures OnePrice(view) ==> PriceRange(view, slider) == (PriceOf(view[0]), PriceOf(view[0]))
    ensures !OnePrice(view) ==> PriceRange(view, slider) == slider
  {
    assert view[0] in view;
    if !OnePrice(view) {
      var c :| c in view && PriceOf(c) != PriceOf(view[0]);
      assert MinPrice(view) != MaxPrice(view);
    }
  }

  /** Lines 120-180 for one tab: its listed cards, filtered and sorted.
      Every card of the sheet that the tab shows appears as often as in
      the sheet. The tab must have at least one listed card, since the
      slider's extent is taken over them. */
  function TabRows(cards: seq<Card>, tab: string, sel: Selection, slider: (real, real)): (r: seq<Card>)
    requires |TabView(cards, tab)| > 0
    ensures |r| <= |TabView(cards, tab)|
    ensures forall c :: c in r <==>
      Shown(cards, tab, sel, TabRange(cards, tab, slider).0, TabRange(cards, tab, slider).1, c)
    ensures forall c :: multiset(r)[c] == if ShownBy(tab, sel, TabRange(cards, tab, slider), c) then multiset(cards)[c] else 0
    ensures Named(r) && Ordered(sel.sort, r)
  {
    var view := TabView(cards, tab);
    var range := PriceRange(view, slider);
    var filtered := ApplyFilters(view, sel, range.0, range.1);
    SubseqLength(filtered, view);
    var sorted := SortRows(filtered, sel);
    assert forall c :: c in sorted <==> c in filtered by {
      forall c ensures c in sorted <==> c in filtered {
        assert c in sorted <==> c in multiset(sorted);
        assert c in filtered <==> c in multiset(filtered);
      }
    }
    sorted
  }

  /** Lines 120-192 for one tab: page `page` of the listing, the number of
      matching cards and the page count. */
  function RunTab(cards: seq<Card>, tab: string, sel: Selection, slider: (real, real),
                  perPage: nat, page: int): (r: PageView<Card>)
    requires |TabView(cards, tab)| > 0
    requires perPage > 0 && page >= 1
    ensures r.totalItems == |TabRows(cards, tab, sel, slider)|
    ensures r.totalPages == TotalPages(r.totalItems, perPage)
    ensures r.items == PageSlice(TabRows(cards, tab, sel, slider), page, perPage)
    ensures forall c :: c in r.items ==>
      Shown(cards, tab, sel, TabRange(cards, tab, slider).0, TabRange(cards, tab, slider).1, c)
    ensures Named(r.items) && Ordered(sel.sort, r.items)
  {
    var rows := TabRows(cards, tab, sel, slider);
    PageOfRows(rows, sel.sort, page, perPage);
    Paginate(rows, page, perPage)
  }

  /** The page a tab shows is the listing's rows from `(page-1)*per_page`
      on, at most `per_page` of them. */
  lemma RunTabShowsPage(cards: seq<Card>, tab: string, sel: Selection, slider: (real, real),
                        perPage: nat, page: int)
    requires |TabView(cards, tab)| > 0
    requires perPage > 0 && page >= 1
    ensures |RunTab(cards, tab, sel, slider, perPage, page).items| ==
      Max(0, Min(perPage, |TabRows(cards, tab, sel, slider)| - PageStart(page, perPage)))
    ensures forall i :: 0 <= i < |RunTab(cards, tab, sel, slider, perPage, page).items| ==>
      PageStart(page, perPage) + i < |TabRows(cards, tab, sel, slider)| &&
      RunTab(cards, tab, sel, slider, perPage, page).items[i] == TabRows(cards, tab, sel, slider)[PageStart(page, perPage) + i]
  {
    var rows := TabRows(cards, tab, sel, slider);
    var p := Paginate(rows, page, perPage);
    assert RunTab(cards, tab, sel, slider, perPage, page).items == p.items;
  }

  /** A page holds rows of the listing, in the listing's order. */
  lemma PageOfRows(rows: seq<Card>, o: SortOption, page: int, perPage: nat)
    requires page >= 1 && perPage > 0
    requires Named(rows) && Ordered(o, rows)
    ensures forall c :: c in PageSlice(rows, page, perPage) ==> c in rows
    ensures Named(PageSlice(rows, page, perPage)) && Ordered(o, PageSlice(rows, page, perPage))
  {
    PageIsSlice(rows, page, perPage);
    OrderedSlice(rows, o, Min(PageStart(page, perPage), |rows|), Min(PageStart(page, perPage) + perPage, |rows|));
  }

  /** A stretch of an ordered listing is ordered, and holds rows of it. */
  lemma OrderedSlice(rows: seq<Card>, o: SortOption, a: nat, b: nat)
    requires a <= b <= |rows|
    requires Named(rows) && Ordered(o, rows)
    ensures forall c :: c in rows[a..b] ==> c in rows
    ensures Named(rows[a..b]) && Ordered(o, rows[a..b])
  {
    var items := rows[a..b];
    forall c | c in items ensures c in rows {
      var i :| 0 <= i < |items| && items[i] == c;
      assert rows[a + i] in rows;
    }
    forall i, j | 0 <= i < j < |items| ensures InOrder(o, items[i], items[j]) {
      assert items[i] == rows[a + i] && items[j] == rows[a + j];
    }
  }

  // ----- lemmas -----

  /** Doing the three filters one after another is the same as keeping
      the cards that pass all three. */
  lemma ApplyFiltersIsOneFilter(view: seq<Card>, sel: Selection, lo: real, hi: real)
    ensures ApplyFilters(view, sel, lo, hi) == Filter(view, c => Passes(sel, lo, hi, c))
  {
    var setOk := c => SetMatches(sel, c);
    var setName := c => SetMatches(sel, c) && NameMatches(sel, c);
    var bySet := BySet(view, sel);
    assert bySet == Filter(view, setOk) by {
      if sel.selectedSet != "All" { FilterExtensional(view, c => InSet(sel.selectedSet, c), setOk); }
      else { FilterAll(view, setOk); }
    }
    var byName := ByName(bySet, sel);
    assert byName == Filter(view, setName) by {
      if Strip(sel.search) != "" { FilterFilter(view, setOk, c => NameContains(sel.search, c), setName); }
      else { FilterExtensional(view, setOk, setName); }
    }
    FilterFilter(view, setName, c => PriceWithin(lo, hi, c), c => Passes(sel, lo, hi, c));
  }

  /** When every card of a tab has the same price, the price filter keeps
      them all. */
  lemma SinglePriceKeepsAll(view: seq<Card>, slider: (real, real), c: Card)
    requires |view| > 0 && MinPrice(view) == MaxPrice(view) && c in view
    ensures PriceWithin(PriceRange(view, slider).0, PriceRange(view, slider).1, c)
  {
  }

  /** The slider's two ends are in order. */
  lemma PriceRangeBounds(view: seq<Card>)
    requires |view| > 0
    ensures MinPrice(view) <= MaxPrice(view)
  {
    assert view[0] in view;
  }

  /** Every card with a non-blank type is in the tab of some label. */
  lemma TabsCoverCards(priority: seq<string>, cards: seq<Card>, c: Card)
    requires c in cards && c.cardType.Some? && NonBlank(Strip(c.cardType.value))
    ensures exists tab :: tab in AllTypes(priority, cards) && InTab(c, tab)
  {
    var t := c.cardType.value;
    assert t in TypeValues(cards);
    StrippedTypeIsRaw(cards, t);
    LabelOfRawType(priority, cards, Strip(t));
  }

  /** Every tab holds a card of its own category: each label comes from
      a raw type some card carries. */
  lemma EveryTabHasItsCards(priority: seq<string>, cards: seq<Card>, tab: string)
    requires tab in AllTypes(priority, cards)
    ensures exists c :: c in cards && InTab(c, tab)
  {
    LabelOrigin(priority, cards, tab);
    var t :| t in RawTypes(cards) && Lower(t) == Lower(tab);
    RawTypeOrigin(cards, t);
    var c :| c in cards && c.cardType.Some? && Strip(c.cardType.value) == t;
    assert InTab(c, tab);
  }

  /** Line 120 as written misses padded types: a card whose type starts
      with whitespace produces a tab (the stripped, title-cased type) yet
      matches no tab, so it is never shown. */
  lemma PaddedTypeUnlisted(priority: seq<string>, cards: seq<Card>, c: Card)
    requires forall p :: p in priority ==> |p| == 0 || !IsSpace(p[0])
    requires c in cards && c.cardType.Some?
    requires |c.cardType.value| > 0 && IsSpace(c.cardType.value[0])
    requires NonBlank(Strip(c.cardType.value))
    ensures exists tab :: tab in AllTypes(priority, cards) && InTab(c, tab)
    ensures forall tab :: tab in AllTypes(priority, cards) ==> !InTabAsWritten(c, tab)
  {
    TabsCoverCards(priority, cards, c);
    forall tab | tab in AllTypes(priority, cards) ensures !InTabAsWritten(c, tab) {
      LabelStartsWithNonSpace(priority, cards, tab);
      PaddedDiffers(c.cardType.value, tab);
    }
  }

  /** A string starting with whitespace and one that does not differ even
      after lower-casing. */
  lemma PaddedDiffers(t: string, tab: string)
    requires |t| > 0 && IsSpace(t[0])
    requires |tab| == 0 || !IsSpace(tab[0])
    ensures Lower(t) != Lower(tab)
  {
    LowerKeepsSpaces(t);
    LowerKeepsSpaces(tab);
  }

  /** No label begins with whitespace. */
  lemma LabelStartsWithNonSpace(priority: seq<string>, cards: seq<Card>, tab: string)
    requires forall p :: p in priority ==> |p| == 0 || !IsSpace(p[0])
    requires tab in AllTypes(priority, cards)
    ensures |tab| == 0 || !IsSpace(tab[0])
  {
    LabelShape(priority, cards, tab);
    if tab !in priority {
      var t :| t in RawTypes(cards) && tab == Title(t);
      RawTypeOrigin(cards, t);
      TitleStripped(t);
    }
  }
}

=== FILE: seqs.dfy ===
/** Order-preserving sequence operations: the shape of a pandas boolean
    mask, a list comprehension, and `Series.unique()`. */
module Seqs {

  /** `a` can be obtained from `b` by deleting elements. */
  predicate IsSubseq<T(==)>(a: seq<T>, b: seq<T>)
    decreases |b|
  {
    |a| == 0 || (|b| > 0 && (if a[0] == b[0] then IsSubseq(a[1..], b[1..]) else IsSubseq(a, b[1..])))
  }

  /** The elements of `xs` that satisfy `p`, in their original order. */
  function Filter<T(==,!new)>(xs: seq<T>, p: T -> bool): (r: seq<T>)
    ensures |r| <= |xs|
    ensures forall x :: x in r <==> x in xs && p(x)
  {
    if |xs| == 0 then []
    else
      var rest := Filter(xs[1..], p);
      assert xs == [xs[0]] + xs[1..];
      if p(xs[0]) then [xs[0]] + rest else rest
  }

  /** Apply `f` to every element. */
  function Map<A, B>(xs: seq<A>, f: A -> B): (r: seq<B>)
    ensures |r| == |xs|
    ensures forall i :: 0 <= i < |xs| ==> r[i] == f(xs[i])
  {
    if |xs| == 0 then [] else [f(xs[0])] + Map(xs[1..], f)
  }

  predicate NoDuplicates<T(==)>(xs: seq<T>) {
    forall i, j :: 0 <= i < j < |xs| ==> xs[i] != xs[j]
  }

  /** `Series.unique()`: each value once, at its first position. */
  function Distinct<T(==,!new)>(xs: seq<T>): (r: seq<T>)
    ensures NoDuplicates(r)
    ensures forall x :: x in r <==> x in xs
  {
    if |xs| == 0 then []
    else
      var init := xs[..|xs| - 1];
      var last := xs[|xs| - 1];
      assert xs == init + [last];
      var d := Distinct(init);
      if last in d then d else d + [last]
  }

  // ----- lemmas -----

  /** A filter keeps the order of what it keeps. */
  lemma {:induction false} FilterIsSubseq<T(!new)>(xs: seq<T>, p: T -> bool)
    ensures IsSubseq(Filter(xs, p), xs)
  {
    if |xs| > 0 {
      FilterIsSubseq(xs[1..], p);
      if !p(xs[0]) {
        SubseqDropHead(Filter(xs, p), xs);
      }
    }
  }

  lemma {:induction false} SubseqDropHead<T>(a: seq<T>, b: seq<T>)
    requires |b| > 0 && IsSubseq(a, b[1..])
    ensures IsSubseq(a, b)
    decreases |b|, 0
  {
    if |a| > 0 && a[0] == b[0] {
      assert IsSubseq(a[1..], b[1..]) by { SubseqTail(a, b[1..]); }
    }
  }

  /** Removing the first element keeps a subsequence a subsequence. */
  lemma {:induction false} SubseqTail<T>(a: seq<T>, b: seq<T>)
    requires |a| > 0 && IsSubseq(a, b)
    ensures IsSubseq(a[1..], b)
    decreases |b|, 1
  {
    if a[0] == b[0] {
      SubseqDropHead(a[1..], b);
    } else {
      SubseqTail(a, b[1..]);
      SubseqDropHead(a[1..], b);
    }
  }

  lemma {:induction false} SubseqReflexive<T>(a: seq<T>)
    ensures IsSubseq(a, a)
    decreases |a|
  {
    if |a| > 0 {
      SubseqReflexive(a[1..]);
    }
  }

  /** A subsequence is no longer than the sequence it is taken from. */
  lemma {:induction false} SubseqLength<T>(a: seq<T>, b: seq<T>)
    requires IsSubseq(a, b)
    ensures |a| <= |b|
    decreases |b|
  {
    if |a| > 0 {
      if a[0] == b[0] {
        SubseqLength(a[1..], b[1..]);
      } else {
        SubseqLength(a, b[1..]);
      }
    }
  }

  lemma {:induction false} SubseqTransitive<T>(a: seq<T>, b: seq<T>, c: seq<T>)
    requires IsSubseq(a, b) && IsSubseq(b, c)
    ensures IsSubseq(a, c)
    decreases |c|
  {
    if |a| > 0 {
      if b[0] == c[0] {
        if a[0] == b[0] {
          SubseqTransitive(a[1..], b[1..], c[1..]);
        } else {
          SubseqTransitive(a, b[1..], c[1..]);
          SubseqDropHead(a, c);
        }
      } else {
        SubseqTransitive(a, b, c[1..]);
        SubseqDropHead(a, c);
      }
    }
  }

  /** Filtering twice is filtering once by the conjunction. */
  lemma {:induction false} FilterFilter<T(!new)>(xs: seq<T>, p: T -> bool, q: T -> bool, pq: T -> bool)
    requires forall x :: x in xs ==> (pq(x) <==> p(x) && q(x))
    ensures Filter(Filter(xs, p), q) == Filter(xs, pq)
  {
    if |xs| > 0 {
      FilterFilter(xs[1..], p, q, pq);
    }
  }

  /** Without duplicates, every element occurs at most once. */
  lemma {:induction false} NoDuplicatesCount<T>(xs: seq<T>)
    requires NoDuplicates(xs)
    ensures forall x :: multiset(xs)[x] <= 1
  {
    if |xs| > 0 {
      NoDuplicatesCount(xs[1..]);
      assert xs == [xs[0]] + xs[1..];
      assert xs[0] !in xs[1..] by {
        forall k | 0 <= k < |xs| - 1 ensures xs[1..][k] != xs[0] {
          assert xs[1..][k] == xs[k + 1];
        }
      }
    }
  }

  /** When every element occurs at most once, there are no duplicates. */
  lemma CountNoDuplicates<T>(xs: seq<T>)
    requires forall x :: multiset(xs)[x] <= 1
    ensures NoDuplicates(xs)
  {
    forall i, j | 0 <= i < j < |xs| ensures xs[i] != xs[j] {
      var a, b := xs[..j], xs[j..];
      assert xs == a + b;
      assert xs[i] == a[i] && xs[j] == b[0];
      assert multiset(a)[xs[i]] >= 1 && multiset(b)[xs[j]] >= 1;
      assert multiset(xs)[xs[i]] == multiset(a)[xs[i]] + multiset(b)[xs[i]];
      assert multiset(b)[xs[i]] == 0;
    }
  }

  /** A filter keeps every copy of an element that passes and no copy of
      one that fails. */
  lemma {:induction false} FilterCount<T(!new)>(xs: seq<T>, p: T -> bool)
    ensures forall x :: multiset(Filter(xs, p))[x] == if p(x) then multiset(xs)[x] else 0
  {
    if |xs| > 0 {
      FilterCount(xs[1..], p);
      assert xs == [xs[0]] + xs[1..];
      assert multiset(xs) == multiset{xs[0]} + multiset(xs[1..]);
    }
  }

  /** A value at two positions occurs at least twice. */
  lemma TwoPositionsCount<T>(s: seq<T>, i: nat, j: nat)
    requires i < j < |s| && s[i] == s[j]
    ensures multiset(s)[s[i]] >= 2
  {
    assert s == s[..j] + s[j..];
    assert s[i] == s[..j][i];
    assert s[j] == s[j..][0];
    assert multiset(s) == multiset(s[..j]) + multiset(s[j..]);
  }

  /** Two different elements with the same image give that image twice. */
  lemma MapTwice<A, B>(xs: seq<A>, f: A -> B, x: A, y: A)
    requires x in xs && y in xs && x != y && f(x) == f(y)
    ensures multiset(Map(xs, f))[f(x)] >= 2
  {
    var m := Map(xs, f);
    var i :| 0 <= i < |xs| && xs[i] == x;
    var j :| 0 <= j < |xs| && xs[j] == y;
    if i < j {
      TwoPositionsCount(m, i, j);
    } else {
      TwoPositionsCount(m, j, i);
    }
  }

  /** The elements of `xs` that `f` maps to `t`. */
  ghost function Preimage<A(!new), B>(xs: seq<A>, f: A -> B, t: B): set<A> {
    set u | u in xs && f(u) == t
  }

  /** Over a sequence without repeats, a value occurs in the mapped
      sequence once for each element that maps to it. */
  lemma {:induction false} MapCount<A(!new), B>(d: seq<A>, f: A -> B, t: B)
    requires NoDuplicates(d)
    ensures multiset(Map(d, f))[t] == |Preimage(d, f, t)|
  {
    if |d| == 0 {
      assert Preimage(d, f, t) == {};
    } else {
      var rest := Preimage(d[1..], f, t);
      MapCount(d[1..], f, t);
      assert Map(d, f) == [f(d[0])] + Map(d[1..], f);
      assert d[0] !in d[1..] by {
        forall k | 0 <= k < |d| - 1 ensures d[1..][k] != d[0] {
          assert d[1..][k] == d[k + 1];
        }
      }
      assert d[0] !in rest;
      if f(d[0]) == t {
        assert Preimage(d, f, t) == rest + {d[0]};
      } else {
        assert Preimage(d, f, t) == rest;
      }
    }
  }

  /** `unique()` and then `f`: each value once per distinct element that
      maps to it. */
  lemma DistinctMapCount<A(!new), B>(xs: seq<A>, f: A -> B, t: B)
    ensures multiset(Map(Distinct(xs), f))[t] == |Preimage(xs, f, t)|
  {
    MapCount(Distinct(xs), f, t);
    assert Preimage(Distinct(xs), f, t) == Preimage(xs, f, t);
  }

  /** Filters that agree on the elements present give the same result. */
  lemma {:induction false} FilterExtensional<T(!new)>(xs: seq<T>, p: T -> bool, q: T -> bool)
    requires forall x :: x in xs ==> (p(x) <==> q(x))
    ensures Filter(xs, p) == Filter(xs, q)
  {
    if |xs| > 0 {
      FilterExtensional(xs[1..], p, q);
    }
  }

  /** A filter that every element passes returns its input. */
  lemma FilterAll<T(!new)>(xs: seq<T>, p: T -> bool)
    requires forall x :: x in xs ==> p(x)
    ensures Filter(xs, p) == xs
  {
    if |xs| > 0 {
      FilterAll(xs[1..], p);
    }
  }

  lemma {:induction false} FilterAppend<T(!new)>(a: seq<T>, b: seq<T>, p: T -> bool)
    ensures Filter(a + b, p) == Filter(a, p) + Filter(b, p)
  {
    if |a| == 0 {
      assert a + b == b;
    } else {
      assert (a + b)[1..] == a[1..] + b;
      FilterAppend(a[1..], b, p);
    }
  }
}

=== FILE: sorting.dfy ===
/**
 * The ordering `DataFrame.sort_values` applies to one column: strings in
 * code-point order, numbers numerically, ascending or descending, with
 * missing values (NaN) placed last either way. Ties are left in an
 * unspecified order, because the default sort kind is not stable.
 */
module Sorting {
  import opened Text

  /** A sort-column value. */
  datatype Key = Missing | Str(s: string) | Num(x: real)

  /** Ascending order on present values of one column kind. */
  predicate KeyLe(a: Key, b: Key) {
    match (a, b)
    case (Str(x), Str(y)) => LexLe(x, y)
    case (Num(x), Num(y)) => x <= y
    case (Str(_), Num(_)) => true
    case (Num(_), Str(_)) => false
    case _ => true
  }

  /** `a` may come before `b`: missing values last, present values
      ascending or (when `desc`) descending. */
  predicate Precedes(desc: bool, a: Key, b: Key) {
    if b.Missing? then true
    else if a.Missing? then false
    else if desc then KeyLe(b, a) else KeyLe(a, b)
  }

  predicate SortedBy<T>(xs: seq<T>, key: T -> Key, desc: bool) {
    forall i, j :: 0 <= i < j < |xs| ==> Precedes(desc, key(xs[i]), key(xs[j]))
  }

  lemma PrecedesTotal(desc: bool, a: Key, b: Key)
    ensures Precedes(desc, a, b) || Precedes(desc, b, a)
  {
    if a.Str? && b.Str? {
      LexLeTotal(a.s, b.s);
    }
  }

  lemma PrecedesTransitive(desc: bool, a: Key, b: Key, c: Key)
    requires Precedes(desc, a, b) && Precedes(desc, b, c)
    ensures Precedes(desc, a, c)
  {
    if a.Str? && b.Str? && c.Str? {
      if desc {
        LexLeTransitive(c.s, b.s, a.s);
      } else {
        LexLeTransitive(a.s, b.s, c.s);
      }
    }
  }

  /** Insert `x` into a sorted sequence, keeping it sorted. */
  function Insert<T(==)>(x: T, xs: seq<T>, key: T -> Key, desc: bool): (r: seq<T>)
    requires SortedBy(xs, key, desc)
    ensures multiset(r) == multiset(xs) + multiset{x}
    ensures SortedBy(r, key, desc)
  {
    if |xs| == 0 then [x]
    else if Precedes(desc, key(x), key(xs[0])) then
      assert forall j :: 0 < j < |xs| ==> Precedes(desc, key(x), key(xs[j])) by {
        forall j | 0 < j < |xs| ensures Precedes(desc, key(x), key(xs[j])) {
          PrecedesTransitive(desc, key(x), key(xs[0]), key(xs[j]));
        }
      }
      [x] + xs
    else
      PrecedesTotal(desc, key(x), key(xs[0]));
      var rest := Insert(x, xs[1..], key, desc);
      assert xs == [xs[0]] + xs[1..];
      HeadPrecedesAll(x, xs, rest, key, desc);
      [xs[0]] + rest
  }

  /** The head of a sorted sequence may precede everything left after `x`
      is inserted into its tail, when it may precede `x`. */
  lemma HeadPrecedesAll<T>(x: T, xs: seq<T>, rest: seq<T>, key: T -> Key, desc: bool)
    requires |xs| > 0 && SortedBy(xs, key, desc) && Precedes(desc, key(xs[0]), key(x))
    requires multiset(rest) == multiset(xs[1..]) + multiset{x}
    ensures forall j :: 0 <= j < |rest| ==> Precedes(desc, key(xs[0]), key(rest[j]))
  {
    forall j | 0 <= j < |rest| ensures Precedes(desc, key(xs[0]), key(rest[j])) {
      assert rest[j] in multiset(rest);
      if rest[j] != x {
        assert rest[j] in multiset(xs[1..]);
        var k :| 0 <= k < |xs[1..]| && xs[1..][k] == rest[j];
        assert xs[k + 1] == rest[j];
      }
    }
  }

  /** `sort_values` on the column `key` projects: a sorted permutation. */
  function SortBy<T(==)>(xs: seq<T>, key: T -> Key, desc: bool): (r: seq<T>)
    ensures multiset(r) == multiset(xs)
    ensures SortedBy(r, key, desc)
  {
    if |xs| == 0 then []
    else
      assert xs == [xs[0]] + xs[1..];
      Insert(xs[0], SortBy(xs[1..], key, desc), key, desc)
  }
}

=== FILE: text.dfy ===
/**
 * String helpers with the meaning of Python's `str.strip`, `str.lower`,
 * `str.title`, substring search and `<=` on strings, restricted to ASCII
 * case mapping.
 */
module Text {

  /** Python's `str.isspace` on the ASCII range: tab to carriage return,
      the four separator controls 0x1C-0x1F, and the space. */
  predicate IsSpace(c: char) {
    c == ' ' || (9 <= c as int <= 13) || (28 <= c as int <= 31)
  }

  predicate IsUpper(c: char) { 'A' <= c <= 'Z' }
  predicate IsLower(c: char) { 'a' <= c <= 'z' }
  predicate IsLetter(c: char) { IsUpper(c) || IsLower(c) }

  function LowerChar(c: char): char {
    if IsUpper(c) then (c as int + 32) as char else c
  }

  function UpperChar(c: char): char {
    if IsLower(c) then (c as int - 32) as char else c
  }

  /** `s.lower()` */
  function Lower(s: string): (r: string)
    ensures |r| == |s|
    ensures forall i :: 0 <= i < |s| ==> r[i] == LowerChar(s[i])
  {
    if |s| == 0 then "" else [LowerChar(s[0])] + Lower(s[1..])
  }

  /** Leading whitespace removed: `r` is the longest suffix of `s` that
      does not start with a space. */
  function TrimStart(s: string): (r: string)
    ensures |r| <= |s| && r == s[|s| - |r|..]
    ensures forall k :: 0 <= k < |s| - |r| ==> IsSpace(s[k])
    ensures |r| == 0 || !IsSpace(r[0])
  {
    if |s| > 0 && IsSpace(s[0]) then TrimStart(s[1..]) else s
  }

  /** Trailing whitespace removed: `r` is the longest prefix of `s` that
      does not end with a space. */
  function TrimEnd(s: string): (r: string)
    ensures |r| <= |s| && r == s[..|r|]
    ensures forall k :: |r| <= k < |s| ==> IsSpace(s[k])
    ensures |r| == 0 || !IsSpace(r[|r| - 1])
  {
    if |s| > 0 && IsSpace(s[|s| - 1]) then TrimEnd(s[..|s| - 1]) else s
  }

  /** `s.strip()` */
  function Strip(s: string): string {
    TrimEnd(TrimStart(s))
  }

  /** A string that neither starts nor ends with whitespace. */
  predicate Stripped(s: string) {
    |s| == 0 || (!IsSpace(s[0]) && !IsSpace(s[|s| - 1]))
  }

  /** `s.title()`: a letter is upper-cased when the character before it is
      not a letter, and lower-cased otherwise; other characters are kept.
      `afterLetter` says whether the character before `s` was a letter. */
  function TitleFrom(afterLetter: bool, s: string): (r: string)
    ensures |r| == |s|
    decreases |s|
  {
    if |s| == 0 then ""
    else
      var c := if !IsLetter(s[0]) then s[0]
               else if afterLetter then LowerChar(s[0])
               else UpperChar(s[0]);
      [c] + TitleFrom(IsLetter(s[0]), s[1..])
  }

  function Title(s: string): string {
    TitleFrom(false, s)
  }

  /** `needle` occurs in `hay` starting at index `i`. */
  predicate OccursAt(hay: string, needle: string, i: int) {
    0 <= i && i + |needle| <= |hay| && hay[i..i + |needle|] == needle
  }

  /** `needle in hay` for Python strings. */
  function Contains(hay: string, needle: string): (r: bool)
    ensures r <==> exists i :: OccursAt(hay, needle, i)
    decreases |hay|
  {
    if OccursAt(hay, needle, 0) then true
    else if |hay| == 0 then false
    else
      OccursShift(hay, needle);
      Contains(hay[1..], needle)
  }

  lemma OccursShift(hay: string, needle: string)
    requires |hay| > 0 && !OccursAt(hay, needle, 0)
    ensures (exists i :: OccursAt(hay, needle, i)) <==> (exists i :: OccursAt(hay[1..], needle, i))
  {
    forall i | OccursAt(hay, needle, i)
      ensures OccursAt(hay[1..], needle, i - 1)
    {
      assert hay[1..][i - 1..i - 1 + |needle|] == hay[i..i + |needle|];
    }
    forall i | OccursAt(hay[1..], needle, i)
      ensures OccursAt(hay, needle, i + 1)
    {
      assert hay[1..][i..i + |needle|] == hay[i + 1..i + 1 + |needle|];
    }
  }

  /** Case-insensitive substring test, as `str.contains(q, case=False)`
      with a literal pattern. */
  predicate ContainsIgnoreCase(hay: string, needle: string) {
    Contains(Lower(hay), Lower(needle))
  }

  /** Python's `a <= b` on strings: code-point lexicographic order. */
  predicate LexLe(a: string, b: string) {
    |a| == 0 || (|b| > 0 && (a[0] < b[0] || (a[0] == b[0] && LexLe(a[1..], b[1..]))))
  }

  // ----- lemmas -----

  lemma {:induction false} LexLeTotal(a: string, b: string)
    ensures LexLe(a, b) || LexLe(b, a)
  {
    if |a| > 0 && |b| > 0 && a[0] == b[0] {
      LexLeTotal(a[1..], b[1..]);
    }
  }

  lemma {:induction false} LexLeTransitive(a: string, b: string, c: string)
    requires LexLe(a, b) && LexLe(b, c)
    ensures LexLe(a, c)
  {
    if |a| > 0 && a[0] == b[0] && b[0] == c[0] {
      LexLeTransitive(a[1..], b[1..], c[1..]);
    }
  }

  lemma {:induction false} LexLeAntisymmetric(a: string, b: string)
    requires LexLe(a, b) && LexLe(b, a)
    ensures a == b
  {
    if |a| > 0 {
      LexLeAntisymmetric(a[1..], b[1..]);
      assert a == [a[0]] + a[1..] && b == [b[0]] + b[1..];
    }
  }

  /** Title-casing changes case only, so a title-cased label lower-cases
      to the same key as the raw value it came from. */
  lemma {:induction false} LowerTitle(afterLetter: bool, s: string)
    ensures Lower(TitleFrom(afterLetter, s)) == Lower(s)
    decreases |s|
  {
    if |s| > 0 {
      LowerTitle(IsLetter(s[0]), s[1..]);
    }
  }

  lemma {:induction false} LowerIdempotent(s: string)
    ensures Lower(Lower(s)) == Lower(s)
  {
    if |s| > 0 {
      LowerIdempotent(s[1..]);
    }
  }

  lemma StripStripped(s: string)
    ensures Stripped(Strip(s))
  {
  }

  /** Stripping only removes whitespace: every character of the result
      comes from `s`, and every non-space character of `s` survives. */
  lemma StripKeepsInner(s: string)
    ensures forall c :: c in Strip(s) ==> c in s
    ensures forall c :: c in s && !IsSpace(c) ==> c in Strip(s)
  {
    forall c | c in s && !IsSpace(c) ensures c in Strip(s) {
      StripKeeps(s, c);
    }
    forall c | c in Strip(s) ensures c in s {
      var k :| 0 <= k < |Strip(s)| && Strip(s)[k] == c;
      assert s[|s| - |TrimStart(s)| + k] == c;
    }
  }

  /** Every character is whitespace. */
  predicate AllSpace(s: string) {
    forall i :: 0 <= i < |s| ==> IsSpace(s[i])
  }

  /** Stripping removes whitespace at the two ends and nothing else: `s`
      is its stripped form framed by a run of whitespace on each side. */
  lemma StripFrame(s: string)
    ensures exists a, b :: AllSpace(a) && AllSpace(b) && s == a + Strip(s) + b
  {
    var a, b := StripParts(s);
  }

  /** The two runs of whitespace that stripping removes. */
  lemma StripParts(s: string) returns (a: string, b: string)
    ensures AllSpace(a) && AllSpace(b) && s == a + Strip(s) + b
  {
    var t := TrimStart(s);
    a := TrimStartParts(s);
    var r;
    r, b := TrimEndParts(t);
    Reassociate(s, a, t, r, b);
  }

  lemma Reassociate(s: string, a: string, t: string, r: string, b: string)
    requires s == a + t && t == r + b
    ensures s == a + r + b
  {
    assert a + (r + b) == a + r + b;
  }

  /** `s` is a run of whitespace followed by `TrimStart(s)`. */
  lemma TrimStartParts(s: string) returns (a: string)
    ensures AllSpace(a) && s == a + TrimStart(s)
  {
    a := s[..|s| - |TrimStart(s)|];
  }

  /** `s` is `TrimEnd(s)` followed by a run of whitespace. */
  lemma TrimEndParts(s: string) returns (r: string, b: string)
    ensures r == TrimEnd(s) && AllSpace(b) && s == r + b
  {
    r := TrimEnd(s);
    b := s[|r|..];
    assert AllSpace(b) by {
      forall i | 0 <= i < |b| ensures IsSpace(b[i]) {
        assert b[i] == s[|r| + i];
      }
    }
  }

  /** A non-space character of `s` survives stripping. */
  lemma StripKeeps(s: string, c: char)
    requires c in s && !IsSpace(c)
    ensures c in Strip(s)
  {
    var a := TrimStart(s);
    var b := TrimEnd(a);
    var k :| 0 <= k < |s| && s[k] == c;
    var off := |s| - |a|;
    assert k >= off;
    assert a[k - off] == c;
    assert k - off < |b|;
    assert b[k - off] == c;
  }

  /** Stripping a string that has no surrounding whitespace changes nothing. */
  lemma StripNoop(s: string)
    requires Stripped(s)
    ensures Strip(s) == s
  {
  }

  lemma StripIdempotent(s: string)
    ensures Strip(Strip(s)) == Strip(s)
  {
    StripNoop(Strip(s));
  }

  /** Lower-casing keeps every whitespace character where it is. */
  lemma LowerStripped(s: string)
    requires Stripped(s)
    ensures Stripped(Lower(s))
  {
  }

  /** Title-casing changes letters only: whitespace stays where it was. */
  lemma {:induction false} TitleKeepsSpaces(afterLetter: bool, s: string)
    ensures forall i :: 0 <= i < |s| ==> (IsSpace(TitleFrom(afterLetter, s)[i]) <==> IsSpace(s[i]))
    decreases |s|
  {
    if |s| > 0 {
      TitleKeepsSpaces(IsLetter(s[0]), s[1..]);
      var r := TitleFrom(afterLetter, s);
      forall i | 0 < i < |s| ensures IsSpace(r[i]) <==> IsSpace(s[i]) {
        assert r[i] == TitleFrom(IsLetter(s[0]), s[1..])[i - 1];
      }
    }
  }

  /** A title-cased stripped string is still stripped. */
  lemma TitleStripped(s: string)
    requires Stripped(s)
    ensures Stripped(Title(s))
  {
    TitleKeepsSpaces(false, s);
  }

  /** Lower-casing changes letters only: whitespace stays where it was. */
  lemma LowerKeepsSpaces(s: string)
    ensures forall i :: 0 <= i < |s| ==> (IsSpace(Lower(s)[i]) <==> IsSpace(s[i]))
  {
  }
}

=== FILE: tracking.dfy ===
/**
 * The value-tracking log: each row's card and slab values coerced to
 * numbers (unparsable or missing becomes 0), its type stripped, and the
 * type selection that narrows what is charted.
 */
module Tracking {
  import opened Wrappers
  import opened Text
  import opened Seqs
  import opened Sorting
  import opened Price
  import opened Ingest

  /** One row of the tracking sheet once loaded; the time stays text, as
      date parsing is not modelled. */
  datatype LogEntry = LogEntry(time: Option<string>, cardValue: real, slabValue: real, cardType: Option<string>)

  /** `pd.to_numeric(..., errors="coerce").fillna(0)` on one cell: a
      decimal literal, surrounding whitespace allowed, gives its value;
      anything else, or a missing cell, gives 0. */
  function CoerceNumber(cell: Option<string>): (r: real)
    ensures cell.None? ==> r == 0.0
    ensures cell.Some? && (forall d :: WellFormed(d) ==> Render(d) != Strip(cell.value)) ==> r == 0.0
    ensures forall d :: cell.Some? && WellFormed(d) && Render(d) == Strip(cell.value) ==> r == Value(d)
  {
    match cell
    case None => 0.0
    case Some(s) => ParseNumber(Strip(s)).GetOr(0.0)
  }

  /** `df["type"].str.strip()`: a missing type stays missing. */
  function StripCell(cell: Option<string>): (r: Option<string>)
    ensures r.Some? <==> cell.Some?
    ensures r.Some? ==> Stripped(r.value) && Strip(cell.value) == r.value
  {
    StripStripped(if cell.Some? then cell.value else "");
    match cell
    case None => None
    case Some(s) => Some(Strip(s))
  }

  /** One tracking row: a missing or unreadable value counts as 0, a
      present type is stripped, a missing one stays missing. */
  function EntryOf(t: Table, row: seq<Option<string>>): (r: LogEntry)
    ensures Cell(t, row, "card_value").None? ==> r.cardValue == 0.0
    ensures Cell(t, row, "slab_value").None? ==> r.slabValue == 0.0
    ensures r.cardType.Some? <==> Cell(t, row, "type").Some?
    ensures r.cardType.Some? ==> Stripped(r.cardType.value)
  {
    LogEntry(Cell(t, row, "time"),
             CoerceNumber(Cell(t, row, "card_value")),
             CoerceNumber(Cell(t, row, "slab_value")),
             StripCell(Cell(t, row, "type")))
  }

  /** One entry per row, each read off its own row. */
  function EntriesOf(t: Table, rows: seq<seq<Option<string>>>): (r: seq<LogEntry>)
    ensures |r| == |rows|
    ensures forall i :: 0 <= i < |rows| ==> r[i] == EntryOf(t, rows[i])
    ensures forall e :: e in r ==> e.cardType.None? || Stripped(e.cardType.value)
  {
    if |rows| == 0 then [] else [EntryOf(t, rows[0])] + EntriesOf(t, rows[1..])
  }

  /** `load_tracking_sheet` after the read: headers trimmed and
      lower-cased (no renaming), values coerced, types stripped. */
  function LoadLog(t: Table): (r: seq<LogEntry>)
    ensures |r| == |t.rows|
    ensures forall e :: e in r ==> e.cardType.None? || Stripped(e.cardType.value)
    ensures forall i :: 0 <= i < |t.rows| ==>
      var n := NormalizeColumns(t, []);
      r[i].time == Cell(n, t.rows[i], "time") &&
      r[i].cardValue == CoerceNumber(Cell(n, t.rows[i], "card_value")) &&
      r[i].slabValue == CoerceNumber(Cell(n, t.rows[i], "slab_value")) &&
      r[i].cardType == StripCell(Cell(n, t.rows[i], "type"))
  {
    var n := NormalizeColumns(t, []);
    assert n.rows == t.rows;
    EntriesOf(n, t.rows)
  }

  /** The types present in the log. */
  function LogTypes(log: seq<LogEntry>): (r: seq<string>)
    ensures forall t :: t in r <==> exists e :: e in log && e.cardType == Some(t)
  {
    if |log| == 0 then []
    else
      var rest := LogTypes(log[1..]);
      assert forall e :: e in log <==> e == log[0] || e in log[1..];
      match log[0].cardType
      case Some(t) => [t] + rest
      case None => rest
  }

  function TypeKey(t: string): Key { Str(t) }

  /** `sorted(df["type"].unique())`: the multiselect's choices and its
      default selection. */
  function TypesAvailable(log: seq<LogEntry>): (r: seq<string>)
    ensures forall t :: t in r <==> exists e :: e in log && e.cardType == Some(t)
    ensures forall i, j :: 0 <= i < j < |r| ==> LexLe(r[i], r[j])
    ensures NoDuplicates(r)
  {
    var d := Distinct(LogTypes(log));
    var r := SortBy(d, TypeKey, false);
    SortedTypes(d, r);
    r
  }

  /** Sorting distinct types keeps them, orders them and keeps them
      distinct. */
  lemma SortedTypes(d: seq<string>, r: seq<string>)
    requires multiset(r) == multiset(d) && SortedBy(r, TypeKey, false) && NoDuplicates(d)
    ensures forall t :: t in r <==> t in d
    ensures forall i, j :: 0 <= i < j < |r| ==> LexLe(r[i], r[j])
    ensures NoDuplicates(r)
  {
    forall t ensures t in r <==> t in d {
      assert t in r <==> t in multiset(r);
      assert t in d <==> t in multiset(d);
    }
    forall i, j | 0 <= i < j < |r| ensures LexLe(r[i], r[j]) {
      assert Precedes(false, TypeKey(r[i]), TypeKey(r[j]));
    }
    NoDuplicatesCount(d);
    CountNoDuplicates(r);
  }


  /** The entry's type is one of the selected ones (`isin`; a missing
      type is never selected). */
  predicate Chosen(selected: seq<string>, e: LogEntry) {
    e.cardType.Some? && e.cardType.value in selected
  }

  /** Lines 263-264: an empty selection applies no restriction; otherwise
      exactly the entries of a selected type remain, in log order. */
  function TrackFilter(log: seq<LogEntry>, selected: seq<string>): (r: seq<LogEntry>)
    ensures |selected| == 0 ==> r == log
    ensures IsSubseq(r, log)
    ensures |selected| > 0 ==> forall e :: e in r <==> e in log && Chosen(selected, e)
    ensures |selected| > 0 ==> forall e :: multiset(r)[e] == if Chosen(selected, e) then multiset(log)[e] else 0
  {
    if |selected| > 0 then
      FilterIsSubseq(log, e => Chosen(selected, e));
      FilterCount(log, e => Chosen(selected, e));
      Filter(log, e => Chosen(selected, e))
    else
      SubseqReflexive(log);
      log
  }

  // ----- lemmas -----

  /** With the default selection (every type present), every entry that
      has a type is kept. */
  lemma DefaultSelectionKeepsTyped(log: seq<LogEntry>, e: LogEntry)
    requires e in log && e.cardType.Some?
    ensures e in TrackFilter(log, TypesAvailable(log))
  {
    assert e.cardType.value in TypesAvailable(log);
  }

  /** Applying the same selection twice changes nothing further. */
  lemma TrackFilterIdempotent(log: seq<LogEntry>, selected: seq<string>)
    ensures TrackFilter(TrackFilter(log, selected), selected) == TrackFilter(log, selected)
  {
    if |selected| > 0 {
      var p := e => Chosen(selected, e);
      FilterFilter(log, p, p, p);
    }
  }

  /** Narrowing the selection narrows the result. */
  lemma TrackFilterMonotone(log: seq<LogEntry>, small: seq<string>, large: seq<string>)
    requires |small| > 0
    requires forall t :: t in small ==> t in large
    ensures forall e :: e in TrackFilter(log, small) ==> e in TrackFilter(log, large)
  {
  }
}

=== FILE: wrappers.dfy ===
/** Optional values: a missing spreadsheet cell (pandas NaN) or a failed parse. */
module Wrappers {

  datatype Option<+T> = None | Some(value: T) {

    /** The wrapped value, or `default` when there is none. */
    function GetOr(default: T): T {
      match this
      case Some(v) => v
      case None => default
    }
  }
}
